=== FILE: README.md ===
# Restish in Dafny

Restish is a small Ruby client-side REST ORM. Models are Hashie mashes with
ActiveModel naming and dirty tracking. Repositories fetch models through
adapters and keep a one-slot snapshot of `all`. Adapters build resource URLs,
send requests over a shared Faraday connection, check the status and unpack
the JSON body. An error collection merges the validation messages of a 422
response into a model.

This project models that in-memory protocol as pure functions over one
immutable `World`:

- **Global state.** `World` holds the adapter table (`Restish.adapters`), the
  default URL and the repository registry (`Repository.repositories`). It also
  holds each repository's snapshot and each including object's default
  connection.
- **Class lookup.** `constantize` becomes the explicit map `classes`, from a
  constant name such as `FoobarAdapter` to a class descriptor.
- **Transport.** It is the parameter `send: Request -> Response`. Every
  request sent is appended to `World.log`, so "nothing was fetched" means the
  log did not grow.
- **Inflectors.** ActiveSupport's `pluralize`, `singularize`, `humanize`,
  `underscore` and `camelize`, and Ruby's `to_s`, are the fields of
  `Text.Inflections`. They are uninterpreted. Lemmas that restate the test
  examples assume the few values the examples need.
- **Exceptions.** Raised exceptions become `Err(Failure)` values of
  `Http.Result`.

Modules follow the source files:

| file | module | Ruby |
|---|---|---|
| `values.dfy` | `Values` | JSON values, `blank?`, truthiness |
| `text.dfy` | `Text` | inflectors, `Array#join` |
| `http.dfy` | `Http` | connections, requests, responses, failures |
| `errors.dfy` | `Errors` | `lib/restish/errors.rb` |
| `records.dfy` | `Records` | model state |
| `collection.dfy` | `Collections` | `lib/restish/collection.rb` |
| `adapter.dfy` | `Adapters` | `lib/restish/adapter.rb` |
| `restish.dfy` | `Restish` | `lib/restish.rb` |
| `adapter_support.dfy` | `AdapterSupport` | `lib/restish/adapter_support.rb` |
| `repository.dfy` | `Repositories` | `lib/restish/repository.rb` |
| `model.dfy` | `Models` | `lib/restish/model.rb` |
| `identity_map.dfy` | `IdentityMap` | `lib/restish/middleware/identity_map.rb` |

The model follows the code, also where its behaviour is easy to misread:

- **Unknown adapter names.** `adapter(name)` for a name with no adapter class
  stores nil under that name. Every later call sees nil, initializes again
  and gets nil again. The table does gain the key.
- **`Repository#save`.** It only calls `adapter(model_name).create(model)`.
  Through it, `Model#save` and `Model#update_attributes` always POST to the
  collection and never PUT. The comment on `update_attributes`
  (lib/restish/model.rb:71-72) says it makes a PUT request.
- **Metadata.** `Adapter#all` attaches metadata only when the body's `meta`
  is present and truthy: `meta_params=` runs under `if meta`. A string `meta`
  is read with `String#[]`, so each field is the key's own name when the text
  contains it and nil otherwise.
- **Single record from `all`.** When the body of `all` holds one record
  instead of a list, `Collection.new(record)` raises. The model returns
  `NotACollection`.

## Model

| member | source | states |
|---|---|---|
| `Errors.Dedup` | lib/restish/errors.rb:20 | `uniq!`: the result has no duplicates and exactly the elements of the input |
| `Errors.DedupKeepsFirstOrder` | lib/restish/errors.rb:20 | `uniq!` keeps each element where it first occurs: kept elements are ordered by first occurrence in the input |
| `Errors.Apply` | lib/restish/errors.rb:9-19 | one message: its text goes to its own bucket for a known attribute, otherwise to `base`, prefixed with the humanized attribute name unless the attribute is `base`; it is appended unless the attribute is known and already holds it; every other bucket is unchanged |
| `Errors.Fold` | lib/restish/errors.rb:9-19 | the loop over every pair: no bucket disappears, and only `base` and the model's attributes can gain one |
| `Errors.FromHash` | lib/restish/errors.rb:8-21 | `base` ends as the old `base` followed by every message filed there, deduplicated; a known attribute gets each of its messages appended unless already present; an unknown attribute other than `base` keeps its bucket untouched and gets no entry |
| `Errors.FromHashFilesEveryMessage` | lib/restish/errors.rb:9-19 | every input message lands in its destination bucket: its own for a known attribute, otherwise `base`, prefixed with the humanized attribute name unless the attribute is `base` |
| `Errors.FromHashKeepsBucketsDistinct` | lib/restish/errors.rb:12 | a known attribute's bucket without duplicates has none after the merge |
| `Errors.FromHashIdempotent` | lib/restish/errors.rb:8-21 | merging the same hash twice gives the same error collection as merging it once |
| `Errors.FromHashExample` | spec/restish/errors_spec.rb:9-23 | the test example: `alive` gets `is invalid`, `cyanide_flask` stays empty, `base` holds exactly `Cyanide flask can't be empty` |
| `Collections.MetaParams` | lib/restish/collection.rb:6-11 | `next_url`, `prev_url` and `count` are copied from the metadata, nil when absent; the records are unchanged |
| `Collections.MetaParamsLastWins` | lib/restish/collection.rb:6-11 | a second assignment overrides all three fields of the first |
| `Collections.MetaParamsIgnoresCountAllKey` | lib/restish/collection.rb:9 | the total comes from `count`; a `count_all` key is ignored |
| `Collections.MetaParamsExample` | spec/restish/collection_spec.rb:9-16 | the test example: `next`, `prev` and 123 |
| `Collections.NextPageUrlParams` | lib/restish/collection.rb:13-16 | nil when `next_url` is nil; fails exactly when `next_url` is set but not a string |
| `Collections.NextPageAfterMeta` | lib/restish/collection.rb:6-16 | after `meta_params=`, metadata without `next_url` gives no next page, and a string `next_url` gives that URL's query |
| `Collections.StringIndex` | lib/restish/collection.rb:7-9 | `String#[]` with a string key: the key itself exactly when it occurs in the text, nil exactly when it does not |
| `Collections.MetaParamsText` | lib/restish/collection.rb:6-11 | string metadata: each of the three fields is its key's name when the text contains the key and nil otherwise; the records are unchanged |
| `Collections.MetaParamsTextExample` | lib/restish/collection.rb:6-11 | the text `count: 3` sets the total to the text `count` and leaves both URLs nil |
| `Adapters.UrlFor` | lib/restish/adapter.rb:102-109 | the URL is the present prefix and `/`, the collection, `/` and the scope unless it is `:all`, then `.` and the present format |
| `Adapters.UrlForRoundTrip` | lib/restish/adapter.rb:102-109 | the scope can be read back from every URL `url_for` builds |
| `Adapters.UrlForInjective` | lib/restish/adapter.rb:102-109 | different scopes give different URLs |
| `Adapters.UrlForPlain` | lib/restish/adapter.rb:105-106 | without prefix and format, `url_for(:all)` is the collection and `url_for(x)` is the collection, `/`, `x` |
| `Adapters.UrlForExamples` | spec/restish/adapter_spec.rb:172-193 | the test examples `foobars`, `foobars/123`, `foo/bars/123` |
| `Adapters.UrlForPrefixFormatExample` | lib/restish/adapter.rb:104-108 | `api/foobars/7.json` for prefix `api` and format `json` |
| `Adapters.UrlForBlankPrefixFormatExample` | lib/restish/adapter.rb:104-108 | a blank prefix and a blank format are skipped: `foobars` |
| `Adapters.Segment` | lib/restish/adapter.rb:106-107 | a scope joined into a URL: a String is used as it is; any other value is its `to_s` |
| `Adapters.StringIdUrls` | lib/restish/adapter.rb:52-93 | without prefix and format, `find` and `update` with String id `s` target `<collection>/s`, and `post(s, action)` targets `<collection>/s/action` |
| `Adapters.UrlOr` | lib/restish/adapter.rb:53 | `options[:url]`, or else the computed URL: a string option is the URL as given; a nil, false or missing option gives the computed URL |
| `Adapters.HandleResponse` | lib/restish/adapter.rb:137-151 | the body exactly when the status is the handled one; otherwise 401, 404 and 422 give their errors and any other status the unhandled-status error |
| `Adapters.UnprocessableErrors` | lib/restish/adapter.rb:33-35 | the body's `errors` when present and truthy, an empty hash when absent, nil or false; never nil |
| `Adapters.UnprocessableCarriesErrors` | lib/restish/adapter.rb:33-35 | a 422 from `create` fails with the unprocessable error, whose `errors` are the body's truthy `errors` or else an empty hash |
| `Adapters.Materialize` | lib/restish/adapter.rb:158-160 | a hash becomes a new model with those attributes, no changes and no errors; nil or false give an empty model; anything else fails |
| `Adapters.MaterializeAll` | lib/restish/adapter.rb:186 | mapping succeeds exactly when every element materializes, with one record per element in order; a failure is the failure of the first element that does not materialize |
| `Adapters.UnpackPlural` | lib/restish/adapter.rb:186 | `map(&block)`: an array succeeds exactly when every element materializes and yields those records in order, otherwise the first failure; an empty hash yields an empty list and a non-empty one fails; any other value fails as not a list |
| `Adapters.UnpackSingular` | lib/restish/adapter.rb:188 | `block.call(...)`: exactly one record, the materialized value, and it succeeds exactly when materializing does, otherwise with the same failure |
| `Adapters.ProbeKeys` | lib/restish/adapter.rb:180-184 | the four probed keys: plural, then singular, of the demodulized name, then of the modulized name |
| `Adapters.FirstHit` | lib/restish/adapter.rb:182-190 | the first probed key the body has, and no earlier one |
| `Adapters.UnpackAttributes` | lib/restish/adapter.rb:179-192 | the first present key among plural and singular of the demodulized name, then of the modulized name, decides; plural keys unpack a list, singular keys one record; no key fails |
| `Adapters.CannotUnpackIffNoKey` | lib/restish/adapter.rb:179-192 | unpacking fails for lack of a key exactly when none of the four probed keys is present |
| `Adapters.EmptyBodyCannotUnpack` | lib/restish/adapter.rb:191 | an empty body cannot be unpacked |
| `Adapters.UnpackExamples` | spec/restish/adapter_spec.rb:72-79 | the test examples: `foobar` gives one record, `foobars` a list of one |
| `Adapters.HandleAndUnpack` | lib/restish/adapter.rb:124-130 | the status error when the status is not handled, otherwise the unpacked body |
| `Adapters.UnpackMeta` | lib/restish/adapter.rb:198-200 | the body's `meta` value exactly when the body has a `meta` key, nil otherwise |
| `Adapters.AttachMeta` | lib/restish/adapter.rb:67-68 | `meta_params = meta if meta`: no or falsy metadata leaves the collection as it is; a hash is read by key and a string by substring; any other truthy value fails; the records are kept |
| `Adapters.Find` | lib/restish/adapter.rb:52-56 | a GET on the adapter's connection, to a string `options[:url]` as given and otherwise to the URL of scope `id`, a String id used as it is; on 200 the unpacked body, any other status gives its error |
| `Adapters.All` | lib/restish/adapter.rb:63-70 | a GET to a string `options[:url]` as given or to the collection URL; any status but 200 gives its error; on 200 a list body becomes a collection with the metadata attached, a single record fails; succeeds exactly when the body unpacks to a list and its `meta` is falsy, a hash or a string |
| `Adapters.AllWithUrlOption` | spec/restish/adapter_spec.rb:53-57 | the test example: `all(url: 'myurl')` sends its GET to `myurl` |
| `Adapters.Create` | lib/restish/adapter.rb:76-79 | a POST of the model's attributes to the collection URL; on 201 the unpacked body, any other status gives its error |
| `Adapters.Update` | lib/restish/adapter.rb:85-88 | a PUT of the model's attributes to the URL of the model's id, a String id used as it is; on 200 the unpacked body, any other status gives its error |
| `Adapters.PostAction` | lib/restish/adapter.rb:90-93 | a POST without body to the URL of scope `id/action`, a String id used as it is; on 201 the unpacked body, any other status gives its error |
| `Adapters.StatusFailures` | lib/restish/adapter.rb:137-151 | 401 from `create` is unauthorized, 404 from `update` not found, 422 from either unprocessable, 500 from `all` unhandled |
| `Restish.Boot` | lib/restish.rb:16-18 | the adapter table starts empty as lib/restish.rb:16-18 sets it, the repository registry starts empty as `self.repositories = []` at lib/restish/repository.rb:5-7 sets it, and the state is consistent |
| `Restish.ClearAdapters` | lib/restish.rb:23-25 | the table is empty afterwards and nothing else changes, the default URL included |
| `Restish.ClearAdaptersIdempotent` | lib/restish.rb:23-25 | clearing twice is clearing once |
| `Restish.ClearAdaptersExample` | spec/restish/restish_spec.rb:4-9 | the test example: a table holding an adapter is empty afterwards |
| `AdapterSupport.GetAdapterClass` | lib/restish/adapter_support.rb:47-53 | the class named `camelize(name) + "Adapter"` when it exists, nil otherwise |
| `AdapterSupport.DefaultConnection` | lib/restish/adapter_support.rb:58-59 | built from the default URL on first use by an object, then the same connection every time |
| `AdapterSupport.InitializeAdapter` | lib/restish/adapter_support.rb:31-41 | nil exactly when there is no class; otherwise a new adapter on the class's connection, leaving the default connections untouched, or on the default connection when the class has none, memoizing only that owner's default connection |
| `AdapterSupport.ResolveAdapter` | lib/restish/adapter_support.rb:15-23 | a non-nil table entry is returned with nothing changed; otherwise exactly what `initialize_adapter` returns, nil included, is stored under the name and returned, in the state `initialize_adapter` leaves; no other entry changes |
| `AdapterSupport.ResolveMemoized` | lib/restish/adapter_support.rb:16-17 | once a name resolves to an adapter, resolving it again returns the same instance and changes nothing |
| `AdapterSupport.ResolveUnknown` | lib/restish/adapter_support.rb:19-21 | a name without class resolves to nil, stores nil, and resolves to nil again |
| `AdapterSupport.ResolveFresh` | lib/restish/adapter_support.rb:19-21 | a newly built adapter differs from every adapter already in the table |
| `AdapterSupport.DefaultConnectionShared` | lib/restish/adapter_support.rb:58-59 | two adapters that use the same object's default connection share it |
| `AdapterSupport.ResolveConnectionChoice` | spec/restish/adapter_support_spec.rb:37-42 | a class with its own connection gets it; one without gets the default connection |
| `Repositories.StripSuffix` | lib/restish/repository.rb:83 | a name ending in `Repository` is the result followed by that suffix; any other name is kept |
| `Repositories.ModelClass` | lib/restish/repository.rb:82-85 | a name ending in `Repository` gives the part before the suffix, underscored; any other name is underscored whole |
| `Repositories.ModelClassOfName` | lib/restish/repository.rb:82-85 | `model_class` of `XRepository` is `X` underscored; of any other name, the whole name underscored |
| `Repositories.Extend` | lib/restish/repository.rb:17-19 | the repository is appended to the registry; existing repositories and the adapter table are untouched |
| `Repositories.ClearCache` | lib/restish/repository.rb:25-27 | this repository's snapshot is nil afterwards; every other repository and all other state is unchanged |
| `Repositories.ClearCacheAll` | lib/restish/repository.rb:12-14 | every registered repository's snapshot is nil afterwards; unregistered ones and all other state are unchanged |
| `Repositories.Fetch` | lib/restish/repository.rb:34 | `adapter(model_class).all(options)`: nil adapter fails; otherwise exactly the adapter's request is logged and its result returned |
| `Repositories.All` | lib/restish/repository.rb:32-38 | with options, always fetched and no snapshot changes; without, the snapshot with no request when there is one, otherwise the state after the fetch, with the collection stored as the snapshot only on success; at most one request |
| `Repositories.Memoize` | lib/restish/repository.rb:36 | the assignment of `@all ||=`: this repository's snapshot becomes the fetched collection; every other repository and all other state are unchanged |
| `Repositories.AllCached` | lib/restish/repository.rb:36 | a second `all()` returns the same collection with no request and no change |
| `Repositories.ClearCacheRefetches` | lib/restish/repository.rb:25-27 | after `clear_cache`, `all()` sends the same request again and gets the same answer |
| `Repositories.AllWithOptionsBypassesCache` | lib/restish/repository.rb:33-34 | `all(options)` leaves every snapshot as it was and sends one request |
| `Repositories.FirstWithId` | lib/restish/repository.rb:58 | the index of the first record with that id, nil exactly when none has it |
| `Repositories.FindLocally` | lib/restish/repository.rb:56-60 | The result is a record of the snapshot that has the id, with no earlier record having it, and it is nil exactly when there is no snapshot or no record of it has the id. |
| `Repositories.FindLocallyExamples` | spec/restish/repository_spec.rb:67-85 | Id 123 is found in a snapshot that holds a record with id 123 and is not found in an empty or missing snapshot. |
| `Repositories.Remote` | lib/restish/repository.rb:48 | `adapter(model_class).find(id)`, with its request logged |
| `Repositories.Find` | lib/restish/repository.rb:44-50 | a local hit is returned with no request; a miss goes to the adapter |
| `Repositories.Select` | lib/restish/repository.rb:70-74 | the reference filter: exactly the records matching every pair, none added |
| `Repositories.Narrow` | lib/restish/repository.rb:72 | one `select`: exactly the records whose value under the key equals the value, never more records than before |
| `Repositories.Inject` | lib/restish/repository.rb:71-73 | the `inject` over the query: exactly the records that match every pair |
| `Repositories.InjectIsSelect` | lib/restish/repository.rb:70-74 | narrowing key by key gives the records matching every pair, in their order |
| `Repositories.Filter` | lib/restish/repository.rb:70-74 | the records of `all` matching every pair, in order; an empty query gives all records |
| `Repositories.FilterExample` | spec/restish/repository_spec.rb:87-113 | the test examples: `parent_id: 1` keeps record 2; `parent_id: 2, extra: true` keeps record 3 |
| `Repositories.Save` | lib/restish/repository.rb:62-64 | `adapter(model_name).create(model)`, its request logged; snapshots unchanged |
| `Repositories.Post` | lib/restish/repository.rb:76-78 | `adapter(model_class).post(id, action)`, its request logged; snapshots unchanged |
| `IdentityMap.Call` | lib/restish/middleware/identity_map.rb:8-13 | the application starts with every registered snapshot nil and an empty adapter table, with everything else unchanged; its state and response are passed through |
| `Models.Persisted` | lib/restish/model.rb:82-84 | persisted exactly when `id` is there and not blank |
| `Models.PersistedExamples` | lib/restish/model.rb:82-84 | no id, a nil id and a whitespace id are not persisted; a numeric id is |
| `Models.NewModel` | lib/restish/model.rb:24-28 | a new model has no errors and no changes |
| `Models.PersistedAfterAssign` | lib/restish/model.rb:54-57 | after `id=`, persisted exactly when the new id is present |
| `Models.Assign` | lib/restish/model.rb:54-57 | the value is always stored; the attribute is marked changed exactly when it already was or the value differs; no other mark changes |
| `Models.AssignIdempotent` | lib/restish/model.rb:54-57 | assigning the same value twice is assigning it once |
| `Models.AssignBack` | lib/restish/model.rb:55 | assigning a new value and then the old one back keeps the change mark |
| `Models.Merge` | lib/restish/model.rb:75 | a hash merged into a hash merges key by key, keeping unmentioned keys; anything else replaces |
| `Models.DeepMerge` | lib/restish/model.rb:75 | the keys are those of both hashes; unmentioned keys keep their value; mentioned keys take the new value unless both are hashes |
| `Models.DeepMergeFlat` | lib/restish/model.rb:75 | without nested hashes, the merge is the right-biased union |
| `Models.MergeSelf` | lib/restish/model.rb:75 | a value merged into itself is unchanged |
| `Models.DeepMergeIdempotent` | lib/restish/model.rb:75 | merging the same hash twice is merging it once |
| `Models.Save` | lib/restish/model.rb:67-69 | the repository's `save` with the model itself: one POST of the model's attributes to the collection URL when the adapter resolves |
| `Models.UpdateAttributes` | lib/restish/model.rb:74-77 | the attributes are deep-merged without marking changes, then saved: the one request carries the merged attributes |

## Left out

- Faraday, JSON encoding and the HTTP middleware stack are not modelled. The connection is an abstract value, and the transport is a function from request to response.
- The inflectors (`pluralize`, `singularize`, `humanize`, `underscore`, `camelize`, `demodulize`, `model_name.collection`) and Ruby's `to_s` are uninterpreted functions.
- JSON floats are not modelled; numbers are integers.
- `Collections.NextPageUrlParams`: URI parsing is a parameter, and a non-string `next_url` is a failure rather than Ruby's URI error text.
- `ResponseError#to_s` message text is not modelled; failures carry the response or the status.
- `RepositoryWrapper`, `Repository.for`, `Model.inherited` and `Model.attributes` (the class-level attribute list) are not modelled. A model's repository is passed by name.
- `Repositories.Filter` returns a plain sequence of records and carries no pagination metadata. In Ruby a non-empty query yields the `Array` that `select` builds, which has none either; an empty query yields the `all` collection itself, metadata included.
- `Values.Blank` recognises ASCII whitespace only; Ruby's `blank?` also accepts other Unicode spaces.
- The Rack environment is not modelled; it is part of the downstream application passed to `IdentityMap.Call`.
- `Adapters.AttachMeta`: a truthy `meta` that is neither a hash nor a string (a number, an array, `true`) fails with `NotAttributes`. It stands for the `TypeError` or `NoMethodError` Ruby raises from `meta['next_url']`; the exception class is not modelled.
- `Adapters.UrlOr`: a truthy `options[:url]` that is not a string becomes a URL through the uninterpreted `to_s`; the model states nothing more about it.
- `Adapters.Segment`: an id that is not a String (a number, say) enters the URLs of `Adapters.Find`, `Adapters.Update`, `Adapters.PostAction`, `Repositories.Remote` and `Repositories.Post` through the uninterpreted `to_s`; only String ids are pinned to their own text.
- ActiveModel's full `Errors` API (`full_messages`, `count`, symbol keys) is not modelled; the collection is a map from attribute name to messages.
- A repository's `model_name` (ActiveModel naming) is taken as given, stored with the repository; `Repositories.Save` resolves the adapter under it.
- Dirty tracking keeps only the set of changed attribute names, not the old values.

=== FILE: adapter.dfy ===
/** `Restish::Adapter`: URL construction, status handling and response
    unpacking for one resource. */
module Adapters {
  import opened Values
  import opened Text
  import opened Http
  import opened Records
  import opened Collections

  /** What an adapter class knows about its resource. The three names come
      from the model's ActiveModel naming and are taken as given. */
  datatype Resource = Resource(
    collection: string,       // `model_name.collection`, e.g. "foo/bars"
    demodulizedKey: string,   // `model_name.to_s.demodulize.underscore`
    modulizedKey: string,     // `model_name.singular`
    prefix: Option<string>,   // `prefix`, nil unless overridden
    format: Option<string>)   // `format`, nil unless overridden

  /** An adapter class: its own connection, if it declares one, and its resource. */
  datatype AdapterClass = AdapterClass(connection: Option<Connection>, resource: Resource)

  /** An adapter instance. `serial` tells apart instances built at different times. */
  datatype Adapter = Adapter(serial: nat, cls: AdapterClass, connection: Connection)

  /** The argument of `url_for`: the symbol `:all` or a further path segment. */
  datatype Scope = AllScope | Seg(segment: string)

  /** What `unpack_attributes` returns: a list for a plural key, one record for a singular key. */
  datatype Unpacked = Many(records: seq<Record>) | One(record: Record)

  /** One transport call and what the adapter made of its response. */
  datatype Call<T> = Call(request: Request, result: Result<T>)

  // ---------------------------------------------------------------- URLs

  function PrefixPart(res: Resource): string
  {
    if PresentText(res.prefix) then res.prefix.value + "/" else ""
  }

  function ScopePart(scope: Scope): string
  {
    if scope.Seg? then "/" + scope.segment else ""
  }

  function FormatPart(res: Resource): string
  {
    if PresentText(res.format) then "." + res.format.value else ""
  }

  /** `url_for(scope)`: the segments joined with `/`, then the format. */
  function UrlFor(res: Resource, scope: Scope): (url: string)
    ensures url == PrefixPart(res) + res.collection + ScopePart(scope) + FormatPart(res)
  {
    var segments :=
      (if PresentText(res.prefix) then [res.prefix.value] else [])
      + [res.collection]
      + (if scope.Seg? then [scope.segment] else []);
    var joined := Join(segments, "/");
    assert joined == PrefixPart(res) + res.collection + ScopePart(scope) by {
      var head := (if PresentText(res.prefix) then [res.prefix.value] else []) + [res.collection];
      if PresentText(res.prefix) {
        JoinSnoc([res.prefix.value], res.collection, "/");
      }
      if scope.Seg? {
        JoinSnoc(head, scope.segment, "/");
      } else {
        assert segments == head;
      }
    }
    if PresentText(res.format) then joined + "." + res.format.value else joined
  }

  /** Reads the scope back out of a URL built for `res`; the inverse of `UrlFor`. */
  function ScopeOf(res: Resource, url: string): Option<Scope>
  {
    var head := PrefixPart(res) + res.collection;
    var tail := FormatPart(res);
    if |head| + |tail| <= |url| && StartsWith(url, head) && EndsWith(url, tail) then
      var middle := url[|head|..|url| - |tail|];
      if |middle| == 0 then Some(AllScope)
      else if middle[0] == '/' then Some(Seg(middle[1..]))
      else None
    else None
  }

  /** Every URL the adapter builds names its scope unambiguously. */
  lemma UrlForRoundTrip(res: Resource, scope: Scope)
    ensures ScopeOf(res, UrlFor(res, scope)) == Some(scope)
  {
    var head := PrefixPart(res) + res.collection;
    var tail := FormatPart(res);
    var url := UrlFor(res, scope);
    var mid := ScopePart(scope);
    assert url == head + mid + tail;
    assert url[..|head|] == head;
    assert url[|url| - |tail|..] == tail;
    assert url[|head|..|url| - |tail|] == mid;
    if scope.Seg? {
      assert mid[1..] == scope.segment;
    }
  }

  /** Distinct scopes give distinct URLs. */
  lemma UrlForInjective(res: Resource, a: Scope, b: Scope)
    requires UrlFor(res, a) == UrlFor(res, b)
    ensures a == b
  {
    UrlForRoundTrip(res, a);
    UrlForRoundTrip(res, b);
  }

  /** Without prefix and format, `:all` is the collection segment and any other
      scope is that segment after a slash. */
  lemma UrlForPlain(res: Resource, s: string)
    requires !PresentText(res.prefix) && !PresentText(res.format)
    ensures UrlFor(res, AllScope) == res.collection
    ensures UrlFor(res, Seg(s)) == res.collection + "/" + s
  {
  }

  /** The examples of the library's own tests: `Foobar` and `Foo::Bar`. */
  lemma UrlForExamples()
    ensures UrlFor(Resource("foobars", "foobar", "foobar", None, None), AllScope) == "foobars"
    ensures UrlFor(Resource("foobars", "foobar", "foobar", None, None), Seg("123")) == "foobars/123"
    ensures UrlFor(Resource("foo/bars", "bar", "foo_bar", None, None), Seg("123")) == "foo/bars/123"
  {
  }

  /** A present prefix comes first and a present format comes last. */
  lemma UrlForPrefixFormatExample()
    ensures UrlFor(Resource("foobars", "foobar", "foobar", Some("api"), Some("json")), Seg("7")) == "api/foobars/7.json"
  {
    var res := Resource("foobars", "foobar", "foobar", Some("api"), Some("json"));
    assert PrefixPart(res) == "api/" by { assert !IsSpace("api"[0]); }
    assert FormatPart(res) == ".json" by { assert !IsSpace("json"[0]); }
  }

  /** A blank prefix and an empty format are skipped. */
  lemma UrlForBlankPrefixFormatExample()
    ensures UrlFor(Resource("foobars", "foobar", "foobar", Some(" "), Some("")), AllScope) == "foobars"
  {
    assert BlankText(" ");
  }

  // ---------------------------------------------------------------- responses

  /** `handle_response`: the body when the status is the handled one, otherwise the error for the status. */
  function HandleResponse(response: Response, handled: int): (r: Result<Body>)
    ensures r.Ok? <==> response.status == handled
    ensures r.Ok? ==> r.value == response.body
    ensures r.Err? && response.status == 401 ==> r.failure == Unauthorized(response)
    ensures r.Err? && response.status == 404 ==> r.failure == NotFound(response)
    ensures r.Err? && response.status == 422 ==> r.failure == UnprocessableEntity(response)
    ensures r.Err? && response.status !in {401, 404, 422} ==> r.failure == UnhandledStatus(response.status)
  {
    if response.status == handled then Ok(response.body)
    else if response.status == 401 then Err(Unauthorized(response))
    else if response.status == 404 then Err(NotFound(response))
    else if response.status == 422 then Err(UnprocessableEntity(response))
    else Err(UnhandledStatus(response.status))
  }

  /** `UnprocessableEntityError#errors`: the body's `errors`, or an empty hash. */
  function UnprocessableErrors(response: Response): (errors: Value)
    ensures "errors" !in response.body ==> errors == Obj(map[])
    ensures "errors" in response.body && Truthy(response.body["errors"]) ==> errors == response.body["errors"]
    ensures "errors" in response.body && !Truthy(response.body["errors"]) ==> errors == Obj(map[])
    ensures Truthy(errors)
  {
    var v := Lookup(response.body, "errors");
    if Truthy(v) then v else Obj(map[])
  }

  /** `materialize_model`: `Model.new(attrs)`. A hash becomes the attributes,
      nil or false give an empty model, anything else cannot be read as a hash. */
  function Materialize(v: Value): (r: Result<Record>)
    ensures r.Ok? <==> v.Obj? || !Truthy(v)
    ensures v.Obj? ==> r == Ok(New(v.fields))
    ensures !Truthy(v) ==> r == Ok(New(map[]))
    ensures r.Ok? ==> r.value.changed == {} && r.value.errors == map[]
  {
    match v
    case Obj(fields) => Ok(New(fields))
    case Null => Ok(New(map[]))
    case Bool(false) => Ok(New(map[]))
    case _ => Err(NotAttributes(v))
  }

  /** `array.map(&block)` with `materialize_model`: stops at the first failure. */
  function MaterializeAll(vs: seq<Value>): (r: Result<seq<Record>>)
    ensures r.Ok? <==> forall i :: 0 <= i < |vs| ==> Materialize(vs[i]).Ok?
    ensures r.Ok? ==> |r.value| == |vs| && forall i :: 0 <= i < |vs| ==> Materialize(vs[i]) == Ok(r.value[i])
    ensures r.Err? ==> exists i :: 0 <= i < |vs| && Materialize(vs[i]) == Err(r.failure)
                                   && forall j :: 0 <= j < i ==> Materialize(vs[j]).Ok?
    decreases |vs|
  {
    if |vs| == 0 then Ok([])
    else
      match Materialize(vs[0])
      case Err(f) => Err(f)
      case Ok(first) =>
        match MaterializeAll(vs[1..])
        case Err(f) => assert forall i :: 0 <= i < |vs[1..]| ==> vs[1..][i] == vs[i + 1]; Err(f)
        case Ok(rest) =>
          assert forall i :: 1 <= i < |vs| ==> vs[i] == vs[1..][i - 1];
          Ok([first] + rest)
  }

  /** The value under a plural key, mapped over. A hash maps over its pairs,
      which are not hashes, so only an empty one succeeds. */
  function UnpackPlural(v: Value): (r: Result<Unpacked>)
    ensures r.Ok? ==> r.value.Many?
    ensures v.Arr? && r.Ok? ==> |r.value.records| == |v.items|
    ensures v.Arr? ==> (r.Ok? <==> MaterializeAll(v.items).Ok?)
    ensures v.Arr? && r.Ok? ==> r.value.records == MaterializeAll(v.items).value
    ensures v.Arr? && r.Err? ==> r == Err(MaterializeAll(v.items).failure)
    ensures v.Obj? ==> (r.Ok? <==> |v.fields| == 0) && (r.Ok? ==> r.value.records == [])
    ensures !v.Arr? && !v.Obj? ==> r == Err(NotAList(v))
  {
    match v
    case Arr(items) =>
      (match MaterializeAll(items)
       case Ok(rs) => Ok(Many(rs))
       case Err(f) => Err(f))
    case Obj(fields) =>
      if |fields| == 0 then Ok(Many([])) else Err(NotAttributes(v))
    case _ => Err(NotAList(v))
  }

  /** The value under a singular key: exactly one record. */
  function UnpackSingular(v: Value): (r: Result<Unpacked>)
    ensures r.Ok? ==> r.value.One?
    ensures r.Ok? <==> Materialize(v).Ok?
    ensures r.Ok? ==> r.value.record == Materialize(v).value
    ensures r.Err? ==> r == Err(Materialize(v).failure)
  {
    match Materialize(v)
    case Ok(rec) => Ok(One(rec))
    case Err(f) => Err(f)
  }

  /** The four keys `unpack_attributes` probes, in order. */
  function ProbeKeys(res: Resource, t: Inflections): (keys: seq<string>)
    ensures |keys| == 4
    ensures forall i :: 0 <= i < 4 ==>
              var name := if i < 2 then res.demodulizedKey else res.modulizedKey;
              keys[i] == if i % 2 == 0 then t.pluralize(name) else t.singularize(name)
  {
    [ t.pluralize(res.demodulizedKey), t.singularize(res.demodulizedKey),
      t.pluralize(res.modulizedKey), t.singularize(res.modulizedKey) ]
  }

  /** The index of the first key in `keys` that the body has. */
  function FirstHit(body: Body, keys: seq<string>): (k: Option<nat>)
    ensures k.Some? ==> (k.value < |keys| && keys[k.value] in body
                         && forall j :: 0 <= j < k.value ==> keys[j] !in body)
    ensures k.None? <==> forall j :: 0 <= j < |keys| ==> keys[j] !in body
    decreases |keys|
  {
    if |keys| == 0 then None
    else if keys[0] in body then Some(0)
    else
      match FirstHit(body, keys[1..])
      case None => None
      case Some(i) => Some(i + 1)
  }

  /** `unpack_attributes`: each candidate name is tried plural first, then
      singular; the first key the body has decides. */
  function UnpackAttributes(body: Body, res: Resource, t: Inflections): (r: Result<Unpacked>)
    ensures var keys := ProbeKeys(res, t);
      match FirstHit(body, keys)
      case None => r == Err(CannotUnpack(body))
      case Some(i) => r == if i % 2 == 0 then UnpackPlural(body[keys[i]]) else UnpackSingular(body[keys[i]])
  {
    var p1, s1 := t.pluralize(res.demodulizedKey), t.singularize(res.demodulizedKey);
    var p2, s2 := t.pluralize(res.modulizedKey), t.singularize(res.modulizedKey);
    var keys := ProbeKeys(res, t);
    var hit := FirstHit(body, keys);
    assert keys[0] == p1 && keys[1] == s1 && keys[2] == p2 && keys[3] == s2;
    if p1 in body then
      assert hit == Some(0);
      UnpackPlural(body[p1])
    else if s1 in body then
      assert hit == Some(1);
      UnpackSingular(body[s1])
    else if p2 in body then
      assert hit == Some(2);
      UnpackPlural(body[p2])
    else if s2 in body then
      assert hit == Some(3);
      UnpackSingular(body[s2])
    else
      assert hit == None;
      Err(CannotUnpack(body))
  }

  /** Unpacking fails with "cannot unpack" exactly when none of the probed keys is present. */
  lemma CannotUnpackIffNoKey(body: Body, res: Resource, t: Inflections)
    ensures UnpackAttributes(body, res, t) == Err(CannotUnpack(body))
        <==> forall j :: 0 <= j < 4 ==> ProbeKeys(res, t)[j] !in body
  {
    var keys := ProbeKeys(res, t);
    var r := UnpackAttributes(body, res, t);
    match FirstHit(body, keys)
    case None =>
    case Some(i) =>
      assert r.Ok? || !r.failure.CannotUnpack?;
  }

  /** An empty body never unpacks. */
  lemma EmptyBodyCannotUnpack(res: Resource, t: Inflections)
    ensures UnpackAttributes(map[], res, t) == Err(CannotUnpack(map[]))
  {
  }

  /** The examples of the library's own tests, for an inflector that adds an "s". */
  lemma UnpackExamples(t: Inflections)
    requires t.pluralize("foobar") == "foobars" && t.singularize("foobar") == "foobar"
    ensures var res := Resource("foobars", "foobar", "foobar", None, None);
      var attrs := map["name" := Str("Da category")];
      && UnpackAttributes(map["foobar" := Obj(attrs)], res, t) == Ok(One(New(attrs)))
      && UnpackAttributes(map["foobars" := Arr([Obj(attrs)])], res, t) == Ok(Many([New(attrs)]))
  {
    var attrs := map["name" := Str("Da category")];
    assert MaterializeAll([Obj(attrs)]) == Ok([New(attrs)]) by {
      assert [Obj(attrs)][1..] == [];
      assert MaterializeAll([]) == Ok([]);
      assert Materialize(Obj(attrs)) == Ok(New(attrs));
      assert [New(attrs)] + [] == [New(attrs)];
    }
  }

  /** `handle_and_unpack_response`. */
  function HandleAndUnpack(response: Response, handled: int, res: Resource, t: Inflections): (r: Result<Unpacked>)
    ensures response.status != handled ==> r.Err? && r == Err(HandleResponse(response, handled).failure)
    ensures response.status == handled ==> r == UnpackAttributes(response.body, res, t)
  {
    match HandleResponse(response, handled)
    case Err(f) => Err(f)
    case Ok(body) => UnpackAttributes(body, res, t)
  }

  /** `unpack_meta`: the `meta` value when the body has that key. */
  function UnpackMeta(response: Response): (meta: Option<Value>)
    ensures meta.Some? <==> "meta" in response.body
    ensures meta.Some? ==> meta.value == response.body["meta"]
  {
    if "meta" in response.body then Some(response.body["meta"]) else None
  }

  // ---------------------------------------------------------------- operations

  /** A value as text, as `Array#join` and `"#{...}"` render it: a String is
      itself; any other value goes through its `to_s`. */
  function Segment(v: Value, t: Inflections): (s: string)
    ensures v.Str? ==> s == v.s
    ensures !v.Str? ==> s == t.toS(v)
  {
    if v.Str? then v.s else t.toS(v)
  }

  /** `options[:url] || computed`: a given string URL is used as it is; any
      other truthy value is whatever the transport makes of it, `to_s`. */
  function UrlOr(options: map<string, Value>, computed: string, t: Inflections): (url: string)
    ensures Lookup(options, "url").Str? ==> url == options["url"].s
    ensures !Truthy(Lookup(options, "url")) ==> url == computed
  {
    var given := Lookup(options, "url");
    if Truthy(given) then Segment(given, t) else computed
  }

  /** `find(id, options)`: GET, 200 expected. */
  function Find(a: Adapter, id: Value, options: map<string, Value>, t: Inflections, send: Request -> Response): (c: Call<Unpacked>)
    ensures c.request.verb == Get && c.request.connection == a.connection && c.request.payload == None
    ensures Lookup(options, "url").Str? ==> c.request.url == options["url"].s
    ensures !Truthy(Lookup(options, "url")) ==> ScopeOf(a.cls.resource, c.request.url) == Some(Seg(Segment(id, t)))
    ensures c.result.Ok? ==> send(c.request).status == 200
    ensures send(c.request).status == 200 ==> c.result == UnpackAttributes(send(c.request).body, a.cls.resource, t)
    ensures send(c.request).status != 200 ==> c.result == Err(HandleResponse(send(c.request), 200).failure)
  {
    var url := UrlOr(options, UrlFor(a.cls.resource, Seg(Segment(id, t))), t);
    UrlForRoundTrip(a.cls.resource, Seg(Segment(id, t)));
    var request := Request(a.connection, Get, url, None);
    Call(request, HandleAndUnpack(send(request), 200, a.cls.resource, t))
  }

  /** `collection.meta_params = meta if meta`: nil, false or no `meta` key
      leave the collection as it is; a hash is read by key and a string by
      substring; anything else has no `[]` taking a String, and fails. */
  function AttachMeta(collection: Collection, meta: Option<Value>): (r: Result<Collection>)
    ensures meta.None? || !Truthy(meta.value) ==> r == Ok(collection)
    ensures meta.Some? && meta.value.Obj? ==> r == Ok(MetaParams(collection, meta.value.fields))
    ensures meta.Some? && meta.value.Str? ==> r == Ok(MetaParamsText(collection, meta.value.s))
    ensures r.Err? <==> meta.Some? && Truthy(meta.value) && !meta.value.Obj? && !meta.value.Str?
    ensures r.Ok? ==> r.value.records == collection.records
  {
    match meta
    case None => Ok(collection)
    case Some(v) =>
      if !Truthy(v) then Ok(collection)
      else match v
        case Obj(fields) => Ok(MetaParams(collection, fields))
        case Str(text) => Ok(MetaParamsText(collection, text))
        case _ => Err(NotAttributes(v))
  }

  /** `all(options)`: GET, 200 expected; the unpacked list becomes a
      collection, with the body's metadata attached when it is truthy. */
  function All(a: Adapter, options: map<string, Value>, t: Inflections, send: Request -> Response): (c: Call<Collection>)
    ensures c.request.verb == Get && c.request.connection == a.connection && c.request.payload == None
    ensures Lookup(options, "url").Str? ==> c.request.url == options["url"].s
    ensures !Truthy(Lookup(options, "url")) ==> ScopeOf(a.cls.resource, c.request.url) == Some(AllScope)
    ensures send(c.request).status != 200 ==> c.result == Err(HandleResponse(send(c.request), 200).failure)
    ensures var u := HandleAndUnpack(send(c.request), 200, a.cls.resource, t);
      && (u.Err? ==> c.result == Err(u.failure))
      && (u.Ok? && u.value.One? ==> c.result == Err(NotACollection))
      && (u.Ok? && u.value.Many? ==> c.result == AttachMeta(Of(u.value.records), UnpackMeta(send(c.request))))
    ensures c.result.Ok? <==>
              && HandleAndUnpack(send(c.request), 200, a.cls.resource, t).Ok?
              && HandleAndUnpack(send(c.request), 200, a.cls.resource, t).value.Many?
              && var meta := Lookup(send(c.request).body, "meta");
                 !Truthy(meta) || meta.Obj? || meta.Str?
    ensures c.result.Ok? ==> send(c.request).status == 200
    ensures c.result.Ok? ==> HandleAndUnpack(send(c.request), 200, a.cls.resource, t) == Ok(Many(c.result.value.records))
    ensures c.result.Ok? && !Truthy(Lookup(send(c.request).body, "meta")) ==>
              c.result.value == Of(c.result.value.records)
    ensures c.result.Ok? && Truthy(Lookup(send(c.request).body, "meta")) && send(c.request).body["meta"].Obj? ==>
              c.result.value == MetaParams(Of(c.result.value.records), send(c.request).body["meta"].fields)
  {
    var url := UrlOr(options, UrlFor(a.cls.resource, AllScope), t);
    UrlForRoundTrip(a.cls.resource, AllScope);
    var request := Request(a.connection, Get, url, None);
    var response := send(request);
    var result :=
      match HandleAndUnpack(response, 200, a.cls.resource, t)
      case Err(f) => Err(f)
      case Ok(One(_)) => Err(NotACollection)
      case Ok(Many(rs)) => AttachMeta(Of(rs), UnpackMeta(response));
    Call(request, result)
  }

  /** The library's own test: `all(url: 'myurl')` sends a GET to `myurl` itself. */
  lemma AllWithUrlOption(a: Adapter, t: Inflections, send: Request -> Response)
    ensures All(a, map["url" := Str("myurl")], t, send).request.url == "myurl"
    ensures Find(a, Num(1), map["url" := Str("myurl")], t, send).request.url == "myurl"
  {
  }

  /** A 422 carries its response, whose `errors` are the body's truthy
      `errors` value or an empty hash: the hash `from_hash` is given. */
  lemma UnprocessableCarriesErrors(a: Adapter, model: Record, t: Inflections, send: Request -> Response)
    ensures var c := Create(a, model, t, send);
      var body := send(c.request).body;
      send(c.request).status == 422 ==>
        && c.result.Err? && c.result.failure.UnprocessableEntity?
        && UnprocessableErrors(c.result.failure.response)
           == (if Truthy(Lookup(body, "errors")) then body["errors"] else Obj(map[]))
  {
  }

  /** `create(model)`: POST of the model's attributes to the collection, 201 expected. */
  function Create(a: Adapter, model: Record, t: Inflections, send: Request -> Response): (c: Call<Unpacked>)
    ensures c.request.verb == Post && c.request.connection == a.connection
    ensures c.request.payload == Some(Obj(model.attrs))
    ensures ScopeOf(a.cls.resource, c.request.url) == Some(AllScope)
    ensures c.result.Ok? ==> send(c.request).status == 201
    ensures send(c.request).status == 201 ==> c.result == UnpackAttributes(send(c.request).body, a.cls.resource, t)
    ensures send(c.request).status != 201 ==> c.result == Err(HandleResponse(send(c.request), 201).failure)
  {
    UrlForRoundTrip(a.cls.resource, AllScope);
    var request := Request(a.connection, Post, UrlFor(a.cls.resource, AllScope), Some(Obj(model.attrs)));
    Call(request, HandleAndUnpack(send(request), 201, a.cls.resource, t))
  }

  /** `update(model)`: PUT of the model's attributes to its own URL, 200 expected. */
  function Update(a: Adapter, model: Record, t: Inflections, send: Request -> Response): (c: Call<Unpacked>)
    ensures c.request.verb == Put && c.request.connection == a.connection
    ensures c.request.payload == Some(Obj(model.attrs))
    ensures ScopeOf(a.cls.resource, c.request.url) == Some(Seg(Segment(Id(model), t)))
    ensures c.result.Ok? ==> send(c.request).status == 200
    ensures send(c.request).status == 200 ==> c.result == UnpackAttributes(send(c.request).body, a.cls.resource, t)
    ensures send(c.request).status != 200 ==> c.result == Err(HandleResponse(send(c.request), 200).failure)
  {
    var scope := Seg(Segment(Id(model), t));
    UrlForRoundTrip(a.cls.resource, scope);
    var request := Request(a.connection, Put, UrlFor(a.cls.resource, scope), Some(Obj(model.attrs)));
    Call(request, HandleAndUnpack(send(request), 200, a.cls.resource, t))
  }

  /** `post(id, action)`: POST without a body to `<collection>/<id>/<action>`, 201 expected. */
  function PostAction(a: Adapter, id: Value, action: string, t: Inflections, send: Request -> Response): (c: Call<Unpacked>)
    ensures c.request.verb == Post && c.request.connection == a.connection && c.request.payload == None
    ensures ScopeOf(a.cls.resource, c.request.url) == Some(Seg(Segment(id, t) + "/" + action))
    ensures c.result.Ok? ==> send(c.request).status == 201
    ensures send(c.request).status == 201 ==> c.result == UnpackAttributes(send(c.request).body, a.cls.resource, t)
    ensures send(c.request).status != 201 ==> c.result == Err(HandleResponse(send(c.request), 201).failure)
  {
    var scope := Seg(Segment(id, t) + "/" + action);
    UrlForRoundTrip(a.cls.resource, scope);
    var request := Request(a.connection, Post, UrlFor(a.cls.resource, scope), None);
    Call(request, HandleAndUnpack(send(request), 201, a.cls.resource, t))
  }

  /** A String id is used as it is: without prefix and format, `find("42")`
      GETs `<collection>/42`, `update` PUTs to `<collection>/<id>` and
      `post("42", action)` POSTs to `<collection>/42/<action>`. */
  lemma StringIdUrls(a: Adapter, id: string, action: string, model: Record, t: Inflections, send: Request -> Response)
    requires !PresentText(a.cls.resource.prefix) && !PresentText(a.cls.resource.format)
    requires Id(model) == Str(id)
    ensures Find(a, Str(id), map[], t, send).request.url == a.cls.resource.collection + "/" + id
    ensures Update(a, model, t, send).request.url == a.cls.resource.collection + "/" + id
    ensures PostAction(a, Str(id), action, t, send).request.url == a.cls.resource.collection + "/" + id + "/" + action
  {
    UrlForPlain(a.cls.resource, id);
    UrlForPlain(a.cls.resource, id + "/" + action);
    assert a.cls.resource.collection + "/" + (id + "/" + action) == a.cls.resource.collection + "/" + id + "/" + action;
  }

  /** A 401 from `create` is an authorization failure and a 404 from `update`
      is a not-found failure, whatever the body says; a 422 from either
      carries the response, whose `errors` the caller can read. */
  lemma StatusFailures(a: Adapter, model: Record, t: Inflections, send: Request -> Response)
    ensures var c := Create(a, model, t, send);
      send(c.request).status == 401 ==> c.result == Err(Unauthorized(send(c.request)))
    ensures var c := Update(a, model, t, send);
      send(c.request).status == 404 ==> c.result == Err(NotFound(send(c.request)))
    ensures var c := Create(a, model, t, send);
      send(c.request).status == 422 ==> c.result == Err(UnprocessableEntity(send(c.request)))
    ensures var c := Update(a, model, t, send);
      send(c.request).status == 422 ==> c.result == Err(UnprocessableEntity(send(c.request)))
    ensures var c := All(a, map[], t, send);
      send(c.request).status == 500 ==> c.result == Err(UnhandledStatus(500))
  {
  }
}

=== FILE: adapter_support.dfy ===
/** `Restish::AdapterSupport`: the memoized name-to-adapter resolution. The
    object that includes the module is named by `owner`; it keeps its own
    default connection. */
module AdapterSupport {
  import opened Values
  import opened Text
  import opened Http
  import opened Adapters
  import opened Restish

  datatype Resolved = Resolved(w: World, adapter: Option<Adapter>)

  datatype WithConnection = WithConnection(w: World, connection: Connection)

  /** `get_adapter_class(name)`: the class `"#{name.camelize}Adapter"`, or nil when there is none. */
  function GetAdapterClass(w: World, name: string, t: Inflections): (c: Option<AdapterClass>)
    ensures c.Some? <==> t.camelize(name) + "Adapter" in w.classes
    ensures c.Some? ==> c.value == w.classes[t.camelize(name) + "Adapter"]
  {
    var constant := t.camelize(name) + "Adapter";
    if constant in w.classes then Some(w.classes[constant]) else None
  }

  /** `default_connection`: built from the default URL on first use, then reused. */
  function DefaultConnection(w: World, owner: string): (r: WithConnection)
    ensures owner in w.defaultConnections ==> r == WithConnection(w, w.defaultConnections[owner])
    ensures owner !in w.defaultConnections ==>
              && r.connection == Connection(w.nextSerial, w.defaultUrl)
              && r.w == w.(defaultConnections := w.defaultConnections[owner := r.connection], nextSerial := w.nextSerial + 1)
    ensures owner in r.w.defaultConnections && r.w.defaultConnections[owner] == r.connection
  {
    if owner in w.defaultConnections then WithConnection(w, w.defaultConnections[owner])
    else
      var c := Connection(w.nextSerial, w.defaultUrl);
      WithConnection(w.(defaultConnections := w.defaultConnections[owner := c], nextSerial := w.nextSerial + 1), c)
  }

  /** `initialize_adapter(name)`: nil when there is no class; otherwise a new
      adapter on the class's own connection, or on the default connection when
      the class declares none. */
  function InitializeAdapter(w: World, owner: string, name: string, t: Inflections): (r: Resolved)
    ensures GetAdapterClass(w, name, t).None? <==> r.adapter.None?
    ensures r.adapter.None? ==> r.w == w
    ensures r.adapter.Some? ==>
              var cls := GetAdapterClass(w, name, t).value;
              && r.adapter.value.cls == cls
              && r.adapter.value.serial >= w.nextSerial
              && r.w.nextSerial == r.adapter.value.serial + 1
              && (cls.connection.Some? ==> r.adapter.value.connection == cls.connection.value)
              && (cls.connection.None? ==> r.adapter.value.connection == DefaultConnection(w, owner).connection)
    ensures r.w.adapters == w.adapters && r.w.repos == w.repos && r.w.registry == w.registry && r.w.log == w.log
    ensures r.w.classes == w.classes && r.w.defaultUrl == w.defaultUrl
    ensures r.adapter.Some? && GetAdapterClass(w, name, t).value.connection.Some? ==>
              r.w.defaultConnections == w.defaultConnections
    ensures r.adapter.Some? && GetAdapterClass(w, name, t).value.connection.None? ==>
              r.w.defaultConnections == DefaultConnection(w, owner).w.defaultConnections
    ensures Valid(w) ==> Valid(r.w)
  {
    match GetAdapterClass(w, name, t)
    case None => Resolved(w, None)
    case Some(cls) =>
      var wc := if cls.connection.Some? then WithConnection(w, cls.connection.value) else DefaultConnection(w, owner);
      var a := Adapter(wc.w.nextSerial, cls, wc.connection);
      Resolved(wc.w.(nextSerial := wc.w.nextSerial + 1), Some(a))
  }

  /** `adapter(name)`: the memoized adapter if the table holds one, otherwise
      the result of `initialize_adapter`, stored under `name` even when it is nil. */
  function ResolveAdapter(w: World, owner: string, name: string, t: Inflections): (r: Resolved)
    ensures name in w.adapters && w.adapters[name].Some? ==> r == Resolved(w, w.adapters[name])
    ensures !(name in w.adapters && w.adapters[name].Some?) ==>
              var i := InitializeAdapter(w, owner, name, t);
              r == Resolved(i.w.(adapters := i.w.adapters[name := i.adapter]), i.adapter)
    ensures name in r.w.adapters && r.w.adapters[name] == r.adapter
    ensures forall n :: n != name ==> (n in r.w.adapters <==> n in w.adapters)
    ensures forall n :: n != name && n in w.adapters ==> r.w.adapters[n] == w.adapters[n]
    ensures r.adapter.None? <==> GetAdapterClass(w, name, t).None? && !(name in w.adapters && w.adapters[name].Some?)
    ensures r.w.repos == w.repos && r.w.registry == w.registry && r.w.log == w.log
    ensures r.w.classes == w.classes && r.w.defaultUrl == w.defaultUrl
    ensures Valid(w) ==> Valid(r.w)
  {
    if name in w.adapters && w.adapters[name].Some? then Resolved(w, w.adapters[name])
    else
      var i := InitializeAdapter(w, owner, name, t);
      Resolved(i.w.(adapters := i.w.adapters[name := i.adapter]), i.adapter)
  }

  /** Once `name` has resolved to an adapter, resolving it again returns that
      same instance and changes nothing. */
  lemma ResolveMemoized(w: World, owner: string, owner': string, name: string, t: Inflections)
    requires ResolveAdapter(w, owner, name, t).adapter.Some?
    ensures var r1 := ResolveAdapter(w, owner, name, t);
      ResolveAdapter(r1.w, owner', name, t) == r1
  {
  }

  /** A name without an adapter class resolves to nil without failing, leaves
      nil in the table, and resolves to nil again on every later call. */
  lemma ResolveUnknown(w: World, owner: string, name: string, t: Inflections)
    requires t.camelize(name) + "Adapter" !in w.classes
    requires name !in w.adapters || w.adapters[name].None?
    ensures var r1 := ResolveAdapter(w, owner, name, t);
      && r1.adapter.None?
      && r1.w == w.(adapters := w.adapters[name := None])
      && ResolveAdapter(r1.w, owner, name, t) == r1
  {
  }

  /** A newly built adapter is a different instance from every adapter already in the table. */
  lemma ResolveFresh(w: World, owner: string, name: string, t: Inflections)
    requires Valid(w)
    requires !(name in w.adapters && w.adapters[name].Some?)
    requires ResolveAdapter(w, owner, name, t).adapter.Some?
    ensures var a := ResolveAdapter(w, owner, name, t).adapter.value;
      forall n :: n in w.adapters && w.adapters[n].Some? ==> w.adapters[n].value != a
  {
  }

  /** Two adapters that fall back on the default connection of the same owner
      share one connection object. */
  lemma DefaultConnectionShared(w: World, owner: string, name1: string, name2: string, t: Inflections)
    requires name1 != name2
    requires !(name1 in w.adapters && w.adapters[name1].Some?) && !(name2 in w.adapters && w.adapters[name2].Some?)
    requires GetAdapterClass(w, name1, t).Some? && GetAdapterClass(w, name1, t).value.connection.None?
    requires GetAdapterClass(w, name2, t).Some? && GetAdapterClass(w, name2, t).value.connection.None?
    ensures var r1 := ResolveAdapter(w, owner, name1, t);
      var r2 := ResolveAdapter(r1.w, owner, name2, t);
      r1.adapter.value.connection == r2.adapter.value.connection
  {
    var r1 := ResolveAdapter(w, owner, name1, t);
    assert GetAdapterClass(r1.w, name2, t) == GetAdapterClass(w, name2, t);
  }

  /** The library's own tests: a class with its own connection gets it; one
      without gets the default connection, built from the default URL. */
  lemma ResolveConnectionChoice(w: World, owner: string, name: string, t: Inflections, own: Connection, res: Resource)
    requires owner !in w.defaultConnections && (name !in w.adapters || w.adapters[name].None?)
    ensures var w1 := w.(classes := w.classes[t.camelize(name) + "Adapter" := AdapterClass(Some(own), res)]);
      ResolveAdapter(w1, owner, name, t).adapter.value.connection == own
    ensures var w2 := w.(classes := w.classes[t.camelize(name) + "Adapter" := AdapterClass(None, res)]);
      ResolveAdapter(w2, owner, name, t).adapter.value.connection == Connection(w.nextSerial, w.defaultUrl)
  {
  }
}

=== FILE: collection.dfy ===
/** `Restish::Collection`: an array of records with optional pagination
    metadata. */
module Collections {
  import opened Values
  import opened Text
  import opened Http
  import opened Records

  /** Unset metadata reads as nil, as an unassigned Ruby instance variable does. */
  datatype Collection = Collection(records: seq<Record>, nextUrl: Value, prevUrl: Value, countAll: Value)

  /** `Collection.new(records)`. */
  function Of(records: seq<Record>): Collection
  {
    Collection(records, Null, Null, Null)
  }

  /** `meta_params=`: copies three keys of the metadata hash and returns the collection. */
  function MetaParams(c: Collection, meta: map<string, Value>): (r: Collection)
    ensures r.records == c.records
    ensures "next_url" in meta ==> r.nextUrl == meta["next_url"]
    ensures "prev_url" in meta ==> r.prevUrl == meta["prev_url"]
    ensures "count" in meta ==> r.countAll == meta["count"]
    ensures "next_url" !in meta ==> r.nextUrl == Null
    ensures "prev_url" !in meta ==> r.prevUrl == Null
    ensures "count" !in meta ==> r.countAll == Null
  {
    c.(nextUrl := Lookup(meta, "next_url"), prevUrl := Lookup(meta, "prev_url"), countAll := Lookup(meta, "count"))
  }

  /** `text[key]` for a String `text`: the key itself when it occurs in the text, nil otherwise. */
  function StringIndex(text: string, key: string): (v: Value)
    ensures v == Str(key) <==> exists i :: At(text, key, i)
    ensures v == Null <==> !Occurs(text, key)
  {
    if Occurs(text, key) then Str(key) else Null
  }

  /** `meta_params=` when the metadata is a String: each field is the
      substring lookup of its key, so it holds the key's own name or nil. */
  function MetaParamsText(c: Collection, text: string): (r: Collection)
    ensures r.records == c.records
    ensures r.nextUrl == StringIndex(text, "next_url") && r.prevUrl == StringIndex(text, "prev_url")
    ensures r.countAll == StringIndex(text, "count")
  {
    c.(nextUrl := StringIndex(text, "next_url"), prevUrl := StringIndex(text, "prev_url"), countAll := StringIndex(text, "count"))
  }

  /** String metadata naming only `count` sets the total to the literal
      text `count` and leaves both URLs nil. */
  lemma MetaParamsTextExample(c: Collection)
    ensures var r := MetaParamsText(c, "count: 3");
      r.nextUrl == Null && r.prevUrl == Null && r.countAll == Str("count") && r.records == c.records
  {
    var text := "count: 3";
    assert At(text, "count", 0);
    assert !StartsWith(text, "next_url") by { assert text[0] != "next_url"[0]; }
    assert !StartsWith(text, "prev_url") by { assert text[0] != "prev_url"[0]; }
  }

  /** Assigning metadata twice keeps only the second assignment. */
  lemma MetaParamsLastWins(c: Collection, m1: map<string, Value>, m2: map<string, Value>)
    ensures MetaParams(MetaParams(c, m1), m2) == MetaParams(c, m2)
  {
  }

  /** The total comes from `count`; a `count_all` key is ignored. */
  lemma MetaParamsIgnoresCountAllKey(c: Collection, meta: map<string, Value>, v: Value)
    requires "count" !in meta
    ensures MetaParams(c, meta["count_all" := v]).countAll == Null
  {
  }

  /** The example of the library's own tests. */
  lemma MetaParamsExample(c: Collection)
    ensures var r := MetaParams(c, map["next_url" := Str("next"), "prev_url" := Str("prev"), "count" := Num(123)]);
      r.nextUrl == Str("next") && r.prevUrl == Str("prev") && r.countAll == Num(123) && r.records == c.records
  {
  }

  /** `next_page_url_params`: nil without a next URL, otherwise the query part
      of the URL, computed by `query` (URI parsing is not modelled). */
  function NextPageUrlParams(c: Collection, query: string -> Option<string>): (r: Result<Option<string>>)
    ensures !Truthy(c.nextUrl) ==> r == Ok(None)
    ensures r.Err? <==> Truthy(c.nextUrl) && !c.nextUrl.Str?
  {
    if !Truthy(c.nextUrl) then Ok(None)
    else match c.nextUrl
      case Str(s) => Ok(query(s))
      case _ => Err(NotAUri(c.nextUrl))
  }

  /** The next page is read from the metadata `all` attached: no `next_url`
      key gives nil, a string one gives that URL's query. */
  lemma NextPageAfterMeta(c: Collection, meta: map<string, Value>, query: string -> Option<string>)
    ensures "next_url" !in meta ==> NextPageUrlParams(MetaParams(c, meta), query) == Ok(None)
    ensures "next_url" in meta && meta["next_url"].Str? ==>
              NextPageUrlParams(MetaParams(c, meta), query) == Ok(query(meta["next_url"].s))
  {
  }
}

=== FILE: errors.dfy ===
/** `Restish::Errors#from_hash`: merging the server's validation messages
    into a model's error collection. */
module Errors {
  import opened Text

  /** Attribute name to its messages. A missing key reads as no messages. */
  type ErrorMap = map<string, seq<string>>

  /** The bucket for messages that belong to no attribute of the model. */
  const BaseKey: string := "base"

  /** The server's error hash, in its iteration order. */
  type ErrorHash = seq<(string, seq<string>)>

  function Bucket(e: ErrorMap, a: string): seq<string>
  {
    if a in e then e[a] else []
  }

  predicate NoDup(s: seq<string>)
  {
    forall i, j :: 0 <= i < j < |s| ==> s[i] != s[j]
  }

  /** Position of the first occurrence of `x` in `s`. */
  function First(s: seq<string>, x: string): (i: nat)
    requires x in s
    ensures i < |s| && s[i] == x && x !in s[..i]
  {
    if s[0] == x then 0
    else
      var i := 1 + First(s[1..], x);
      assert s[..i] == [s[0]] + s[1..][..i - 1];
      i
  }

  /** Any index that holds `x` with no earlier `x` is the first one. */
  lemma FirstUnique(s: seq<string>, x: string, i: nat)
    requires i < |s| && s[i] == x && x !in s[..i]
    ensures First(s, x) == i
  {
    var j := First(s, x);
    assert forall q :: 0 <= q < i ==> s[..i][q] == s[q];
    assert forall q :: 0 <= q < j ==> s[..j][q] == s[q];
  }

  /** `Array#uniq`: every element once, where it first occurs. */
  function Dedup(s: seq<string>): (d: seq<string>)
    ensures NoDup(d)
    ensures forall x :: x in d <==> x in s
    decreases |s|
  {
    if |s| == 0 then []
    else
      var p := Dedup(s[..|s| - 1]);
      var x := s[|s| - 1];
      assert forall y :: y in s <==> y in s[..|s| - 1] || y == x by {
        assert s == s[..|s| - 1] + [x];
      }
      if x in p then p else p + [x]
  }

  /** The elements of `Dedup(s)` appear in the order of their first occurrence in `s`. */
  lemma {:induction false} DedupKeepsFirstOrder(s: seq<string>)
    ensures forall i, j :: 0 <= i < j < |Dedup(s)| ==> First(s, Dedup(s)[i]) < First(s, Dedup(s)[j])
    decreases |s|
  {
    if |s| > 0 {
      var n := |s| - 1;
      var pre := s[..n];
      var p := Dedup(pre);
      var x := s[n];
      var d := Dedup(s);
      DedupKeepsFirstOrder(pre);
      if x in p {
        assert d == p;
        forall i, j | 0 <= i < j < |d|
          ensures First(s, d[i]) < First(s, d[j])
        {
          FirstInPrefix(s, n, d[i]);
          FirstInPrefix(s, n, d[j]);
        }
      } else {
        assert d == p + [x];
        FirstOfNew(s, n, p);
        forall i, j | 0 <= i < j < |d|
          ensures First(s, d[i]) < First(s, d[j])
        {
          if j < |p| {
            FirstInPrefix(s, n, d[i]);
            FirstInPrefix(s, n, d[j]);
          }
        }
      }
    }
  }

  lemma FirstInPrefix(s: seq<string>, n: nat, y: string)
    requires n <= |s| && y in s[..n]
    ensures y in s && First(s, y) == First(s[..n], y)
  {
    var k := First(s[..n], y);
    assert s[..k] == s[..n][..k];
    FirstUnique(s, y, k);
  }

  /** An element missing from the earlier part occurs first after all of that part's elements. */
  lemma FirstOfNew(s: seq<string>, n: nat, p: seq<string>)
    requires n < |s| && s[n] !in s[..n]
    requires forall y :: y in p ==> y in s[..n]
    ensures First(s, s[n]) == n
    ensures forall i :: 0 <= i < |p| ==> p[i] in s && First(s, p[i]) < n
  {
    FirstUnique(s, s[n], n);
    forall i | 0 <= i < |p|
      ensures p[i] in s && First(s, p[i]) < n
    {
      FirstInPrefix(s, n, p[i]);
    }
  }

  lemma DedupSnocPresent(x: seq<string>, m: string)
    requires m in x
    ensures Dedup(x + [m]) == Dedup(x)
  {
    assert (x + [m])[..|x|] == x;
  }

  /** `Dedup` of a concatenation only depends on `Dedup` of the left part. */
  lemma {:induction false} DedupAppend(x: seq<string>, y: seq<string>)
    ensures Dedup(x + y) == Dedup(Dedup(x) + y)
    decreases |y|
  {
    if |y| == 0 {
      assert x + y == x;
      assert Dedup(x) + y == Dedup(x);
      DedupOfNoDup(Dedup(x));
    } else {
      var y' := y[..|y| - 1];
      var z := y[|y| - 1];
      DedupAppend(x, y');
      assert (x + y)[..|x + y| - 1] == x + y';
      assert (Dedup(x) + y)[..|Dedup(x) + y| - 1] == Dedup(x) + y';
    }
  }

  lemma {:induction false} DedupOfNoDup(d: seq<string>)
    requires NoDup(d)
    ensures Dedup(d) == d
    decreases |d|
  {
    if |d| > 0 {
      var pre := d[..|d| - 1];
      DedupOfNoDup(pre);
      assert d[|d| - 1] !in pre;
      assert pre + [d[|d| - 1]] == d;
    }
  }

  /** Appending elements that are already present changes nothing after `Dedup`. */
  lemma {:induction false} DedupAbsorb(x: seq<string>, y: seq<string>)
    requires forall i :: 0 <= i < |y| ==> y[i] in x
    ensures Dedup(x + y) == Dedup(x)
    decreases |y|
  {
    if |y| == 0 {
      assert x + y == x;
    } else {
      var y' := y[..|y| - 1];
      DedupAbsorb(x, y');
      assert x + y == (x + y') + [y[|y| - 1]];
      DedupSnocPresent(x + y', y[|y| - 1]);
    }
  }

  /** The hash flattened into one (attribute, message) pair per message. */
  function Steps(h: ErrorHash): (s: seq<(string, string)>)
    ensures forall i, j :: 0 <= i < |h| && 0 <= j < |h[i].1| ==> (h[i].0, h[i].1[j]) in s
  {
    if |h| == 0 then []
    else
      var here := seq(|h[0].1|, j requires 0 <= j < |h[0].1| => (h[0].0, h[0].1[j]));
      var rest := Steps(h[1..]);
      forall i, j | 0 <= i < |h| && 0 <= j < |h[i].1|
        ensures (h[i].0, h[i].1[j]) in here + rest
      {
        if i == 0 {
          assert (here + rest)[j] == (h[0].0, h[0].1[j]);
        } else {
          assert h[i] == h[1..][i - 1];
          assert (h[i].0, h[i].1[j]) in rest;
        }
      }
      here + rest
  }

  /** Where a message for attribute `a` is filed. */
  function Destination(known: set<string>, a: string): string
  {
    if a in known then a else BaseKey
  }

  /** The text that is filed: unknown attributes get their humanized name in front. */
  function Target(known: set<string>, t: Inflections, a: string, m: string): string
  {
    if a in known || a == BaseKey then m else t.humanize(a) + " " + m
  }

  /** One message of the loop body: the message's text is appended to its
      destination bucket, unless the attribute is known and the bucket already
      holds it; no other bucket changes. */
  function Apply(e: ErrorMap, known: set<string>, t: Inflections, a: string, m: string): (r: ErrorMap)
    ensures var d, b := Destination(known, a), Bucket(e, Destination(known, a));
      && d in r
      && Bucket(r, d) == (if a in known && Target(known, t, a, m) in b then b else b + [Target(known, t, a, m)])
    ensures forall k :: k != Destination(known, a) ==> (k in r <==> k in e) && (k in e ==> r[k] == e[k])
  {
    if a in known then
      var b := Bucket(e, a);
      if m in b then e else e[a := b + [m]]
    else if a == BaseKey then
      e[BaseKey := Bucket(e, BaseKey) + [m]]
    else
      e[BaseKey := Bucket(e, BaseKey) + [t.humanize(a) + " " + m]]
  }

  /** The loop of `from_hash` over every (attribute, message) pair in turn.
      No bucket disappears, and only `base` and the model's attributes can appear. */
  function Fold(e: ErrorMap, known: set<string>, t: Inflections, s: seq<(string, string)>): (r: ErrorMap)
    ensures forall k :: k in e ==> k in r
    ensures forall k :: k in r ==> k in e || k == BaseKey || k in known
    decreases |s|
  {
    if |s| == 0 then e else Fold(Apply(e, known, t, s[0].0, s[0].1), known, t, s[1..])
  }

  /** The messages for attribute `k`, in order. */
  function Msgs(k: string, s: seq<(string, string)>): seq<string>
    decreases |s|
  {
    if |s| == 0 then [] else (if s[0].0 == k then [s[0].1] else []) + Msgs(k, s[1..])
  }

  /** The texts that arrive in the `base` bucket, in order. */
  function Arrivals(known: set<string>, t: Inflections, s: seq<(string, string)>): seq<string>
    decreases |s|
  {
    if |s| == 0 then []
    else
      (if Destination(known, s[0].0) == BaseKey then [Target(known, t, s[0].0, s[0].1)] else [])
      + Arrivals(known, t, s[1..])
  }

  /** `add(attribute, error) unless self[attribute].include?(error)`, for each message in turn. */
  function AddAll(b: seq<string>, ms: seq<string>): seq<string>
    decreases |ms|
  {
    if |ms| == 0 then b else AddAll(if ms[0] in b then b else b + [ms[0]], ms[1..])
  }

  lemma {:induction false} AddAllContains(b: seq<string>, ms: seq<string>)
    ensures forall x :: x in b ==> x in AddAll(b, ms)
    ensures forall i :: 0 <= i < |ms| ==> ms[i] in AddAll(b, ms)
    decreases |ms|
  {
    if |ms| > 0 {
      var b' := if ms[0] in b then b else b + [ms[0]];
      AddAllContains(b', ms[1..]);
      assert forall i :: 1 <= i < |ms| ==> ms[i] == ms[1..][i - 1];
    }
  }

  lemma {:induction false} AddAllNoop(b: seq<string>, ms: seq<string>)
    requires forall i :: 0 <= i < |ms| ==> ms[i] in b
    ensures AddAll(b, ms) == b
    decreases |ms|
  {
    if |ms| > 0 {
      assert forall i :: 0 <= i < |ms[1..]| ==> ms[1..][i] == ms[i + 1];
      AddAllNoop(b, ms[1..]);
    }
  }

  lemma {:induction false} AddAllKeepsNoDup(b: seq<string>, ms: seq<string>)
    requires NoDup(b)
    ensures NoDup(AddAll(b, ms))
    decreases |ms|
  {
    if |ms| > 0 {
      AddAllKeepsNoDup(if ms[0] in b then b else b + [ms[0]], ms[1..]);
    }
  }

  /** Attributes the model does not know, other than `base`, are never touched. */
  lemma {:induction false} FoldOther(e: ErrorMap, known: set<string>, t: Inflections, s: seq<(string, string)>, k: string)
    requires k != BaseKey && k !in known
    ensures var f := Fold(e, known, t, s); (k in f <==> k in e) && (k in e ==> f[k] == e[k])
    decreases |s|
  {
    if |s| > 0 {
      FoldOther(Apply(e, known, t, s[0].0, s[0].1), known, t, s[1..], k);
    }
  }

  /** A known attribute's bucket receives its messages, each at most once. */
  lemma {:induction false} FoldKnown(e: ErrorMap, known: set<string>, t: Inflections, s: seq<(string, string)>, k: string)
    requires k != BaseKey && k in known
    ensures var f := Fold(e, known, t, s);
      && (k in f <==> k in e || |Msgs(k, s)| > 0)
      && Bucket(f, k) == AddAll(Bucket(e, k), Msgs(k, s))
    decreases |s|
  {
    if |s| > 0 {
      var e1 := Apply(e, known, t, s[0].0, s[0].1);
      FoldKnown(e1, known, t, s[1..], k);
      if s[0].0 == k {
        assert Msgs(k, s) == [s[0].1] + Msgs(k, s[1..]);
        assert Msgs(k, s)[1..] == Msgs(k, s[1..]);
      } else {
        assert Msgs(k, s) == Msgs(k, s[1..]);
      }
    }
  }

  /** What one message does to the `base` bucket. */
  lemma ApplyBase(e: ErrorMap, known: set<string>, t: Inflections, a: string, m: string)
    ensures var b := Bucket(e, BaseKey);
      Bucket(Apply(e, known, t, a, m), BaseKey)
      == if a in known && a != BaseKey then b
         else if a in known && m in b then b
         else b + [Target(known, t, a, m)]
  {
  }

  lemma ArrivalsHead(known: set<string>, t: Inflections, s: seq<(string, string)>)
    requires |s| > 0
    ensures Arrivals(known, t, s)
      == (if Destination(known, s[0].0) == BaseKey then [Target(known, t, s[0].0, s[0].1)] else [])
         + Arrivals(known, t, s[1..])
  {
  }

  /** Up to `Dedup`, the `base` bucket ends as the old bucket followed by the arrivals. */
  lemma {:induction false} FoldBase(e: ErrorMap, known: set<string>, t: Inflections, s: seq<(string, string)>)
    ensures Dedup(Bucket(Fold(e, known, t, s), BaseKey)) == Dedup(Bucket(e, BaseKey) + Arrivals(known, t, s))
    decreases |s|
  {
    if |s| == 0 {
      assert Bucket(e, BaseKey) + [] == Bucket(e, BaseKey);
    } else {
      var e1 := Apply(e, known, t, s[0].0, s[0].1);
      FoldBase(e1, known, t, s[1..]);
      assert Fold(e, known, t, s) == Fold(e1, known, t, s[1..]);
      ApplyBaseThen(e, known, t, s[0].0, s[0].1, Arrivals(known, t, s[1..]));
      ArrivalsHead(known, t, s);
    }
  }

  /** Up to `Dedup`, one message followed by more arrivals leaves `base` as
      the old bucket followed by this message's arrival and the others. */
  lemma ApplyBaseThen(e: ErrorMap, known: set<string>, t: Inflections, a: string, m: string, r: seq<string>)
    ensures var head := if Destination(known, a) == BaseKey then [Target(known, t, a, m)] else [];
      Dedup(Bucket(Apply(e, known, t, a, m), BaseKey) + r) == Dedup(Bucket(e, BaseKey) + (head + r))
  {
    var b := Bucket(e, BaseKey);
    var x := Target(known, t, a, m);
    ApplyBase(e, known, t, a, m);
    if a in known && a != BaseKey {
      assert [] + r == r;
    } else if a in known && m in b {
      DedupSkipPresent(b, x, r);
    } else {
      assert (b + [x]) + r == b + ([x] + r);
    }
  }

  lemma DedupSkipPresent(b: seq<string>, x: string, r: seq<string>)
    requires x in b
    ensures Dedup(b + ([x] + r)) == Dedup(b + r)
  {
    calc {
      Dedup(b + ([x] + r));
      { assert b + ([x] + r) == (b + [x]) + r; }
      Dedup((b + [x]) + r);
      { DedupAppend(b + [x], r); }
      Dedup(Dedup(b + [x]) + r);
      { DedupSnocPresent(b, x); }
      Dedup(Dedup(b) + r);
      { DedupAppend(b, r); }
      Dedup(b + r);
    }
  }

  /** `Errors#from_hash`. `known` is the set of the model's attribute names. */
  function FromHash(e: ErrorMap, known: set<string>, t: Inflections, h: ErrorHash): (r: ErrorMap)
    ensures BaseKey in r && r[BaseKey] == Dedup(Bucket(e, BaseKey) + Arrivals(known, t, Steps(h)))
    ensures NoDup(r[BaseKey])
    ensures forall k :: k != BaseKey && k in known ==>
              && (k in r <==> k in e || |Msgs(k, Steps(h))| > 0)
              && Bucket(r, k) == AddAll(Bucket(e, k), Msgs(k, Steps(h)))
    ensures forall k :: k != BaseKey && k !in known ==> (k in r <==> k in e) && (k in e ==> r[k] == e[k])
  {
    var s := Steps(h);
    var f := Fold(e, known, t, s);
    FoldBase(e, known, t, s);
    forall k | k != BaseKey && k in known
      ensures (k in f <==> k in e || |Msgs(k, s)| > 0) && Bucket(f, k) == AddAll(Bucket(e, k), Msgs(k, s))
    {
      FoldKnown(e, known, t, s, k);
    }
    forall k | k != BaseKey && k !in known
      ensures (k in f <==> k in e) && (k in e ==> f[k] == e[k])
    {
      FoldOther(e, known, t, s, k);
    }
    f[BaseKey := Dedup(Bucket(f, BaseKey))]
  }

  /** Every message of the input ends up in the bucket it is filed under. */
  lemma FromHashFilesEveryMessage(e: ErrorMap, known: set<string>, t: Inflections, h: ErrorHash, i: nat, j: nat)
    requires i < |h| && j < |h[i].1|
    ensures var a := h[i].0;
      Target(known, t, a, h[i].1[j]) in Bucket(FromHash(e, known, t, h), Destination(known, a))
  {
    var s := Steps(h);
    var a, m := h[i].0, h[i].1[j];
    var n :| 0 <= n < |s| && s[n] == (a, m);
    if Destination(known, a) == BaseKey {
      ArrivalsContain(known, t, s, n);
    } else {
      FromHashFilesKnown(e, known, t, h, s, n);
    }
  }

  lemma FromHashFilesKnown(e: ErrorMap, known: set<string>, t: Inflections, h: ErrorHash, s: seq<(string, string)>, n: nat)
    requires s == Steps(h) && n < |s| && Destination(known, s[n].0) != BaseKey
    ensures Target(known, t, s[n].0, s[n].1) in Bucket(FromHash(e, known, t, h), s[n].0)
  {
    var a := s[n].0;
    MsgsContain(a, s, n);
    AddAllContains(Bucket(e, a), Msgs(a, s));
  }

  lemma {:induction false} ArrivalsContain(known: set<string>, t: Inflections, s: seq<(string, string)>, n: nat)
    requires n < |s| && Destination(known, s[n].0) == BaseKey
    ensures Target(known, t, s[n].0, s[n].1) in Arrivals(known, t, s)
    decreases |s|
  {
    if n > 0 {
      ArrivalsContain(known, t, s[1..], n - 1);
    }
  }

  lemma {:induction false} MsgsContain(k: string, s: seq<(string, string)>, n: nat)
    requires n < |s| && s[n].0 == k
    ensures s[n].1 in Msgs(k, s)
    decreases |s|
  {
    if n > 0 {
      MsgsContain(k, s[1..], n - 1);
    }
  }

  /** A known attribute's bucket that had no duplicates still has none. */
  lemma FromHashKeepsBucketsDistinct(e: ErrorMap, known: set<string>, t: Inflections, h: ErrorHash, k: string)
    requires k in known && NoDup(Bucket(e, k))
    ensures NoDup(Bucket(FromHash(e, known, t, h), k))
  {
    if k != BaseKey {
      AddAllKeepsNoDup(Bucket(e, k), Msgs(k, Steps(h)));
    }
  }

  lemma IdempotentBase(e: ErrorMap, known: set<string>, t: Inflections, h: ErrorHash)
    ensures var r1 := FromHash(e, known, t, h);
      FromHash(r1, known, t, h)[BaseKey] == r1[BaseKey]
  {
    var A := Arrivals(known, t, Steps(h));
    var r1 := FromHash(e, known, t, h);
    var d := r1[BaseKey];
    assert forall i :: 0 <= i < |A| ==> A[i] in d by {
      assert forall i :: 0 <= i < |A| ==> (Bucket(e, BaseKey) + A)[|Bucket(e, BaseKey)| + i] == A[i];
    }
    DedupAbsorb(d, A);
    DedupOfNoDup(d);
  }

  lemma IdempotentKnown(e: ErrorMap, known: set<string>, t: Inflections, h: ErrorHash, k: string)
    requires k != BaseKey && k in known
    ensures var r1 := FromHash(e, known, t, h);
      var r2 := FromHash(r1, known, t, h);
      (k in r2 <==> k in r1) && Bucket(r2, k) == Bucket(r1, k)
  {
    var ms := Msgs(k, Steps(h));
    var b1 := AddAll(Bucket(e, k), ms);
    AddAllContains(Bucket(e, k), ms);
    AddAllNoop(b1, ms);
  }

  /** Merging the same hash a second time changes nothing. */
  lemma FromHashIdempotent(e: ErrorMap, known: set<string>, t: Inflections, h: ErrorHash)
    ensures FromHash(FromHash(e, known, t, h), known, t, h) == FromHash(e, known, t, h)
  {
    var r1 := FromHash(e, known, t, h);
    var r2 := FromHash(r1, known, t, h);
    IdempotentBase(e, known, t, h);
    forall k
      ensures (k in r2 <==> k in r1) && (k in r1 ==> r2[k] == r1[k])
    {
      if k != BaseKey && k in known {
        IdempotentKnown(e, known, t, h, k);
      }
    }
  }

  /** The example of the library's own tests: `alive` is an attribute of the
      model, `cyanide_flask` is not. */
  lemma FromHashExample(t: Inflections)
    requires t.humanize("cyanide_flask") == "Cyanide flask"
    ensures var known := {"owner", "name", "alive"};
      var h := [("alive", ["is invalid"]), ("cyanide_flask", ["can't be empty"])];
      var r := FromHash(map[], known, t, h);
      && Bucket(r, "alive") == ["is invalid"]
      && Bucket(r, "cyanide_flask") == []
      && r[BaseKey] == ["Cyanide flask can't be empty"]
  {
    var known := {"owner", "name", "alive"};
    var h := [("alive", ["is invalid"]), ("cyanide_flask", ["can't be empty"])];
    var s := Steps(h);
    assert s == [("alive", "is invalid"), ("cyanide_flask", "can't be empty")];
    assert s[1..] == [("cyanide_flask", "can't be empty")];
    assert s[1..][1..] == [];
    assert Msgs("alive", s) == ["is invalid"];
    assert Target(known, t, "cyanide_flask", "can't be empty") == "Cyanide flask can't be empty";
    assert Arrivals(known, t, s) == ["Cyanide flask can't be empty"];
    assert Dedup(["Cyanide flask can't be empty"]) == ["Cyanide flask can't be empty"];
  }
}

=== FILE: http.dfy ===
/** The transport boundary: connections, requests, responses, and the
    failures the core raises. */
module Http {
  import opened Values

  /** An opaque connection handle. `serial` tells apart connections built at
      different times; `url` is the base URL it was built with, if any. */
  datatype Connection = Connection(serial: nat, url: Option<string>)

  datatype Verb = Get | Post | Put

  /** One call into the transport. */
  datatype Request = Request(connection: Connection, verb: Verb, url: string, payload: Option<Value>)

  /** What the transport hands back: a status code and a decoded body. */
  datatype Response = Response(status: int, body: Body)

  /** Everything the core can raise. */
  datatype Failure =
      /** 401 Unauthorized */
    | Unauthorized(response: Response)
      /** 404 Not Found */
    | NotFound(response: Response)
      /** 422 Unprocessable Entity */
    | UnprocessableEntity(response: Response)
      /** any other status that is not the expected one */
    | UnhandledStatus(status: int)
      /** the body has none of the probed keys */
    | CannotUnpack(body: Body)
      /** a record was built from a value that is not a hash */
    | NotAttributes(value: Value)
      /** a plural key held something that cannot be mapped over */
    | NotAList(value: Value)
      /** `Collection.new` was handed a single record */
    | NotACollection
      /** a method was called on the nil that an unknown adapter name resolves to */
    | NilAdapter(name: string)
      /** `URI(...)` was handed something that is not a string */
    | NotAUri(value: Value)

  datatype Result<+T> = Ok(value: T) | Err(failure: Failure)
}

=== FILE: identity_map.dfy ===
/** `Restish::Middleware::IdentityMap`: a Rack middleware that starts every
    request from empty repository snapshots and an empty adapter table. */
module IdentityMap {
  import opened Restish
  import opened Repositories

  /** A Rack response: status, headers and body. */
  datatype Triple = Triple(status: int, headers: map<string, string>, body: seq<string>)

  /** `call(env)`: the class-level `clear_cache`, then `clear_adapters`, then
      the downstream application, whose response is passed on as it is. The
      Rack environment is part of `app`. Returns the state the application
      started from, the state after it, and its response. */
  method Call(w: World, app: World -> (World, Triple)) returns (seen: World, w': World, response: Triple)
    requires forall i :: 0 <= i < |w.registry| ==> w.registry[i] in w.repos
    ensures seen.adapters == map[]
    ensures seen.repos.Keys == w.repos.Keys
    ensures forall i :: 0 <= i < |w.registry| ==> seen.repos[w.registry[i]].snapshot.None?
    ensures forall n :: n in w.repos ==> seen.repos[n].modelName == w.repos[n].modelName
    ensures seen == w.(repos := seen.repos, adapters := map[])
    ensures (w', response) == app(seen)
    ensures Valid(w) ==> Valid(seen)
  {
    var cleared := ClearCacheAll(w);
    seen := ClearAdapters(cleared);
    var out := app(seen);
    w' := out.0;
    response := out.1;
  }
}

=== FILE: model.dfy ===
/** `Restish::Model`: persistence test, the dirty-tracking setters generated
    for declared attributes, the deep merge behind `update_attributes`, and
    the delegation of saving to the model's repository. */
module Models {
  import opened Values
  import opened Text
  import opened Http
  import opened Records
  import opened Adapters
  import opened Restish
  import opened AdapterSupport
  import opened Repositories

  /** `persisted?`: the `id` attribute is present (not nil, not blank). */
  function Persisted(r: Record): (p: bool)
    ensures p <==> "id" in r.attrs && !Blank(r.attrs["id"])
  {
    !Blank(Id(r))
  }

  /** A new model has no errors and nothing changed; it counts as persisted
      exactly when it was given a present id. */
  lemma NewModel(attrs: map<string, Value>)
    ensures New(attrs).errors == map[] && New(attrs).changed == {} && New(attrs).attrs == attrs
    ensures Persisted(New(attrs)) <==> "id" in attrs && !Blank(attrs["id"])
  {
  }

  /** No id, a nil id and a whitespace id are not persisted; a numeric id is. */
  lemma PersistedExamples()
    ensures !Persisted(New(map[]))
    ensures !Persisted(New(map["id" := Null]))
    ensures !Persisted(New(map["id" := Str(" \t")]))
    ensures Persisted(New(map["id" := Num(1)]))
  {
    var s := " \t";
    assert IsSpace(s[0]) && IsSpace(s[1]);
  }

  /** The generated setter `attr=` of a declared attribute: the value is
      always stored; the attribute is marked changed only when the value
      differs from the current one (a missing attribute reads as nil). */
  function Assign(r: Record, attr: string, v: Value): (r': Record)
    ensures r'.attrs == r.attrs[attr := v] && r'.errors == r.errors
    ensures attr in r'.changed <==> attr in r.changed || v != Lookup(r.attrs, attr)
    ensures r'.changed - {attr} == r.changed - {attr}
    ensures v == Lookup(r.attrs, attr) ==> r'.changed == r.changed
  {
    var changed := if v == Lookup(r.attrs, attr) then r.changed else r.changed + {attr};
    r.(attrs := r.attrs[attr := v], changed := changed)
  }

  /** Assigning the same value twice is assigning it once. */
  lemma AssignIdempotent(r: Record, attr: string, v: Value)
    ensures Assign(Assign(r, attr, v), attr, v) == Assign(r, attr, v)
  {
  }

  /** Assigning a value and then the old one back stores the old value, but
      leaves the attribute marked as changed. */
  lemma AssignBack(r: Record, attr: string, v: Value)
    requires v != Lookup(r.attrs, attr)
    ensures var r2 := Assign(Assign(r, attr, v), attr, Lookup(r.attrs, attr));
      Lookup(r2.attrs, attr) == Lookup(r.attrs, attr) && attr in r2.changed
  {
  }

  /** After `id=`, the model is persisted exactly when the new id is present. */
  lemma PersistedAfterAssign(r: Record, v: Value)
    ensures Persisted(Assign(r, "id", v)) <==> !Blank(v)
  {
  }

  /** Hashie's `deep_update` for one value: a hash merged into a hash merges
      key by key, anything else replaces the old value. */
  function Merge(cur: Value, upd: Value): (m: Value)
    ensures !(cur.Obj? && upd.Obj?) ==> m == upd
    ensures cur.Obj? && upd.Obj? ==>
              && m.Obj?
              && m.fields.Keys == cur.fields.Keys + upd.fields.Keys
              && (forall k :: k in cur.fields && k !in upd.fields ==> m.fields[k] == cur.fields[k])
              && (forall k :: k in upd.fields && k !in cur.fields ==> m.fields[k] == upd.fields[k])
              && (forall k :: k in upd.fields && k in cur.fields ==> m.fields[k] == Merge(cur.fields[k], upd.fields[k]))
    decreases upd
  {
    if cur.Obj? && upd.Obj? then
      Obj(map k | k in cur.fields.Keys + upd.fields.Keys ::
            if k in upd.fields then
              (if k in cur.fields then Merge(cur.fields[k], upd.fields[k]) else upd.fields[k])
            else cur.fields[k])
    else upd
  }

  /** `merge!(attrs)` on the attribute hash. */
  function DeepMerge(attrs: map<string, Value>, update: map<string, Value>): (m: map<string, Value>)
    ensures m.Keys == attrs.Keys + update.Keys
    ensures forall k :: k in attrs && k !in update ==> m[k] == attrs[k]
    ensures forall k :: k in update && !(k in attrs && attrs[k].Obj? && update[k].Obj?) ==> m[k] == update[k]
  {
    Merge(Obj(attrs), Obj(update)).fields
  }

  /** When no updating value is a hash, the deep merge is the plain
      right-biased union of the two hashes. */
  lemma DeepMergeFlat(attrs: map<string, Value>, update: map<string, Value>)
    requires forall k :: k in update ==> !update[k].Obj?
    ensures DeepMerge(attrs, update) == attrs + update
  {
  }

  /** Merging the same update twice is merging it once. */
  lemma {:induction false} MergeIdempotent(cur: Value, upd: Value)
    ensures Merge(Merge(cur, upd), upd) == Merge(cur, upd)
    decreases upd
  {
    if cur.Obj? && upd.Obj? {
      var m := Merge(cur, upd);
      var mm := Merge(m, upd);
      assert mm.fields.Keys == m.fields.Keys;
      forall k | k in m.fields
        ensures mm.fields[k] == m.fields[k]
      {
        if k in upd.fields {
          if k in cur.fields {
            MergeIdempotent(cur.fields[k], upd.fields[k]);
          } else {
            MergeSelf(upd.fields[k]);
          }
        }
      }
      assert mm.fields == m.fields;
    } else {
      MergeSelf(upd);
    }
  }

  /** A hash merged into itself is unchanged. */
  lemma {:induction false} MergeSelf(v: Value)
    ensures Merge(v, v) == v
    decreases v
  {
    if v.Obj? {
      var m := Merge(v, v);
      forall k | k in v.fields
        ensures m.fields[k] == v.fields[k]
      {
        MergeSelf(v.fields[k]);
      }
      assert m.fields == v.fields;
    }
  }

  /** `update_attributes` twice with the same hash leaves the same attributes as once. */
  lemma DeepMergeIdempotent(attrs: map<string, Value>, update: map<string, Value>)
    ensures DeepMerge(DeepMerge(attrs, update), update) == DeepMerge(attrs, update)
  {
    MergeIdempotent(Obj(attrs), Obj(update));
  }

  /** The model after `merge!` and what the following `save` returned. */
  datatype Updated = Updated(model: Record, outcome: Outcome<Unpacked>)

  /** `save`: the repository's `save` with the model itself. When the adapter
      resolves, exactly one request is sent: a POST of the model's attributes
      to the collection URL. */
  function Save(w: World, repo: string, model: Record, t: Inflections, send: Request -> Response): (o: Outcome<Unpacked>)
    requires repo in w.repos
    ensures o == Repositories.Save(w, repo, model, t, send)
    ensures var r := ResolveAdapter(w, repo, w.repos[repo].modelName, t);
      r.adapter.Some? ==>
        && |o.w.log| == |w.log| + 1 && o.w.log[..|w.log|] == w.log
        && o.w.log[|w.log|].verb == Post
        && o.w.log[|w.log|].payload == Some(Obj(model.attrs))
        && ScopeOf(r.adapter.value.cls.resource, o.w.log[|w.log|].url) == Some(AllScope)
    ensures o.w.repos == w.repos
  {
    var o := Repositories.Save(w, repo, model, t, send);
    var r := ResolveAdapter(w, repo, w.repos[repo].modelName, t);
    assert r.adapter.Some? ==> o.w.log == w.log + [Create(r.adapter.value, model, t, send).request];
    o
  }

  /** `update_attributes(attrs)`: deep-merge the hash into the attributes
      (no setter runs, so nothing is marked changed), then `save`. */
  function UpdateAttributes(w: World, repo: string, model: Record, attrs: map<string, Value>, t: Inflections, send: Request -> Response): (u: Updated)
    requires repo in w.repos
    ensures u.model.attrs == DeepMerge(model.attrs, attrs)
    ensures u.model.changed == model.changed && u.model.errors == model.errors
    ensures u.outcome == Save(w, repo, u.model, t, send)
    ensures ResolveAdapter(w, repo, w.repos[repo].modelName, t).adapter.Some? ==>
              u.outcome.w.log == w.log + [u.outcome.w.log[|w.log|]]
              && u.outcome.w.log[|w.log|].payload == Some(Obj(DeepMerge(model.attrs, attrs)))
  {
    var merged := model.(attrs := DeepMerge(model.attrs, attrs));
    var o := Save(w, repo, merged, t, send);
    Updated(merged, o)
  }
}

=== FILE: records.dfy ===
/** The state of one model instance: its attribute hash, the names of the
    attributes changed since it was loaded, and its error collection. */
module Records {
  import opened Values
  import Errors

  datatype Record = Record(attrs: map<string, Value>, changed: set<string>, errors: Errors.ErrorMap)

  /** `Model.new(attrs)`: nothing is marked changed and there are no errors. */
  function New(attrs: map<string, Value>): Record
  {
    Record(attrs, {}, map[])
  }

  /** `model.id`: the `id` attribute, nil when absent. */
  function Id(r: Record): Value
  {
    Lookup(r.attrs, "id")
  }
}

=== FILE: repository.dfy ===
/** `Restish::Repository`: the per-model façade with a one-slot snapshot of
    `all`, local lookups, filtering, and the registry used for cache clearing.
    A repository is named by its Ruby name; its state lives in `World.repos`. */
module Repositories {
  import opened Values
  import opened Text
  import opened Http
  import opened Records
  import opened Collections
  import opened Adapters
  import opened Restish
  import opened AdapterSupport

  /** The state after an operation and what it returned or raised. */
  datatype Outcome<T> = Outcome(w: World, result: Result<T>)

  const Suffix: string := "Repository"

  // ---------------------------------------------------------------- naming

  /** `name[/^(.*)Repository$/, 1] || name`. */
  function StripSuffix(name: string): (base: string)
    ensures EndsWith(name, Suffix) ==> base + Suffix == name
    ensures !EndsWith(name, Suffix) ==> base == name
  {
    if EndsWith(name, Suffix) then name[..|name| - |Suffix|] else name
  }

  /** `model_class`: the adapter name this repository resolves. */
  function ModelClass(name: string, t: Inflections): (m: string)
    ensures EndsWith(name, Suffix) ==> m == t.underscore(name[..|name| - |Suffix|])
    ensures !EndsWith(name, Suffix) ==> m == t.underscore(name)
  {
    t.underscore(StripSuffix(name))
  }

  /** A repository named after its model with the suffix resolves that model's
      name; any other name resolves itself, underscored. */
  lemma ModelClassOfName(base: string, name: string, t: Inflections)
    requires !EndsWith(name, Suffix)
    ensures ModelClass(base + Suffix, t) == t.underscore(base)
    ensures ModelClass(name, t) == t.underscore(name)
  {
    var n := base + Suffix;
    assert n[|n| - |Suffix|..] == Suffix;
    assert n[..|n| - |Suffix|] == base;
  }

  // ---------------------------------------------------------------- registry

  /** `Repository.extended(base)`: the object is appended to the registry. */
  function Extend(w: World, name: string, modelName: string): (w': World)
    ensures w'.registry == w.registry + [name]
    ensures name in w'.repos
    ensures name in w.repos ==> w'.repos[name] == w.repos[name]
    ensures name !in w.repos ==> w'.repos[name] == Repo(modelName, None)
    ensures forall n :: n in w.repos ==> n in w'.repos && (n != name ==> w'.repos[n] == w.repos[n])
    ensures forall n :: n in w'.repos ==> n in w.repos || n == name
    ensures w'.adapters == w.adapters && w'.log == w.log
    ensures Valid(w) ==> Valid(w')
  {
    var repo := if name in w.repos then w.repos[name] else Repo(modelName, None);
    w.(registry := w.registry + [name], repos := w.repos[name := repo])
  }

  /** Instance `clear_cache`: `@all = nil`. */
  function ClearCache(w: World, repo: string): (w': World)
    requires repo in w.repos
    ensures w'.repos.Keys == w.repos.Keys
    ensures w'.repos[repo].snapshot.None? && w'.repos[repo].modelName == w.repos[repo].modelName
    ensures forall n :: n in w.repos && n != repo ==> w'.repos[n] == w.repos[n]
    ensures w' == w.(repos := w'.repos)
    ensures Valid(w) ==> Valid(w')
  {
    w.(repos := w.repos[repo := w.repos[repo].(snapshot := None)])
  }

  /** Class-level `Repository.clear_cache`: `clear_cache` on every registered repository, in order. */
  method ClearCacheAll(w: World) returns (w': World)
    requires forall i :: 0 <= i < |w.registry| ==> w.registry[i] in w.repos
    ensures w'.repos.Keys == w.repos.Keys
    ensures forall i :: 0 <= i < |w.registry| ==> w'.repos[w.registry[i]].snapshot.None?
    ensures forall n :: n in w.repos ==> w'.repos[n].modelName == w.repos[n].modelName
    ensures forall n :: n in w.repos && n !in w.registry ==> w'.repos[n] == w.repos[n]
    ensures w' == w.(repos := w'.repos)
    ensures Valid(w) ==> Valid(w')
  {
    w' := w;
    var i := 0;
    while i < |w.registry|
      invariant 0 <= i <= |w.registry|
      invariant w' == w.(repos := w'.repos)
      invariant w'.repos.Keys == w.repos.Keys
      invariant forall j :: 0 <= j < i ==> w'.repos[w.registry[j]].snapshot.None?
      invariant forall n :: n in w.repos ==> w'.repos[n].modelName == w.repos[n].modelName
      invariant forall n :: n in w.repos && n !in w.registry[..i] ==> w'.repos[n] == w.repos[n]
    {
      var r := w.registry[i];
      var cleared := ClearCache(w', r);
      assert w.registry[..i + 1] == w.registry[..i] + [r];
      forall j | 0 <= j < i + 1
        ensures cleared.repos[w.registry[j]].snapshot.None?
      {
        if w.registry[j] != r {
          assert cleared.repos[w.registry[j]] == w'.repos[w.registry[j]];
        }
      }
      forall n | n in w.repos && n !in w.registry[..i + 1]
        ensures cleared.repos[n] == w.repos[n]
      {
        assert n != r;
      }
      w' := cleared;
      i := i + 1;
    }
    assert w.registry[..i] == w.registry;
  }

  // ---------------------------------------------------------------- reads

  /** `adapter(model_class).all(options)`, with the request logged. */
  function Fetch(w: World, repo: string, options: map<string, Value>, t: Inflections, send: Request -> Response): (o: Outcome<Collection>)
    ensures o.w.repos == w.repos && o.w.registry == w.registry
    ensures var r := ResolveAdapter(w, repo, ModelClass(repo, t), t);
      match r.adapter
      case None => o == Outcome(r.w, Err(NilAdapter(ModelClass(repo, t))))
      case Some(a) =>
        var c := Adapters.All(a, options, t, send);
        o.w == r.w.(log := w.log + [c.request]) && o.result == c.result
    ensures |w.log| <= |o.w.log| <= |w.log| + 1 && o.w.log[..|w.log|] == w.log
    ensures Valid(w) ==> Valid(o.w)
  {
    var r := ResolveAdapter(w, repo, ModelClass(repo, t), t);
    match r.adapter
    case None => Outcome(r.w, Err(NilAdapter(ModelClass(repo, t))))
    case Some(a) =>
      var c := Adapters.All(a, options, t, send);
      assert (r.w.log + [c.request])[..|w.log|] == w.log;
      Outcome(r.w.(log := r.w.log + [c.request]), c.result)
  }

  /** `all(options)`: with options, always fetched and never cached; without,
      the snapshot when there is one, otherwise fetched and kept as the snapshot. */
  function All(w: World, repo: string, options: map<string, Value>, t: Inflections, send: Request -> Response): (o: Outcome<Collection>)
    requires repo in w.repos
    ensures o.w.repos.Keys == w.repos.Keys && o.w.registry == w.registry
    ensures |options| > 0 ==> o.w.repos == w.repos && o == Fetch(w, repo, options, t, send)
    ensures |options| == 0 && w.repos[repo].snapshot.Some? ==> o == Outcome(w, Ok(w.repos[repo].snapshot.value))
    ensures |options| == 0 && w.repos[repo].snapshot.None? ==> o.result == Fetch(w, repo, options, t, send).result
    ensures |options| == 0 && w.repos[repo].snapshot.None? ==>
              var f := Fetch(w, repo, options, t, send);
              o.w == if f.result.Ok? then f.w.(repos := f.w.repos[repo := f.w.repos[repo].(snapshot := Some(f.result.value))])
                     else f.w
    ensures |options| == 0 && o.result.Ok? ==> o.w.repos[repo].snapshot == Some(o.result.value)
    ensures o.result.Err? ==> o.w.repos == w.repos
    ensures forall n :: n in w.repos && n != repo ==> o.w.repos[n] == w.repos[n]
    ensures o.w.repos[repo].modelName == w.repos[repo].modelName
    ensures |w.log| <= |o.w.log| <= |w.log| + 1 && o.w.log[..|w.log|] == w.log
    ensures Valid(w) ==> Valid(o.w)
  {
    if |options| > 0 then Fetch(w, repo, options, t, send)
    else match w.repos[repo].snapshot
      case Some(c) => Outcome(w, Ok(c))
      case None =>
        var f := Fetch(w, repo, options, t, send);
        match f.result
        case Err(_) => f
        case Ok(c) => Outcome(Memoize(f.w, repo, c), f.result)
  }

  /** `@all ||= ...` on a miss: the fetched collection becomes this repository's snapshot. */
  function Memoize(w: World, repo: string, c: Collection): (w': World)
    requires repo in w.repos
    ensures w'.repos.Keys == w.repos.Keys
    ensures w'.repos[repo].snapshot == Some(c) && w'.repos[repo].modelName == w.repos[repo].modelName
    ensures forall n :: n in w.repos && n != repo ==> w'.repos[n] == w.repos[n]
    ensures w' == w.(repos := w'.repos)
    ensures Valid(w) ==> Valid(w')
  {
    w.(repos := w.repos[repo := w.repos[repo].(snapshot := Some(c))])
  }

  /** A second `all()` answers from the snapshot: same value, no request, nothing changed. */
  lemma AllCached(w: World, repo: string, t: Inflections, send: Request -> Response)
    requires repo in w.repos
    requires All(w, repo, map[], t, send).result.Ok?
    ensures var o1 := All(w, repo, map[], t, send);
      All(o1.w, repo, map[], t, send) == Outcome(o1.w, o1.result)
  {
  }

  /** After `clear_cache`, `all()` sends again exactly the request that filled
      the snapshot, and gets the same answer. */
  lemma ClearCacheRefetches(w: World, repo: string, t: Inflections, send: Request -> Response)
    requires repo in w.repos && w.repos[repo].snapshot.None?
    requires All(w, repo, map[], t, send).result.Ok?
    ensures var o1 := All(w, repo, map[], t, send);
      var o2 := All(ClearCache(o1.w, repo), repo, map[], t, send);
      && |o1.w.log| == |w.log| + 1
      && o2.w.log == o1.w.log + [o1.w.log[|w.log|]]
      && o2.result == o1.result
  {
    var name := ModelClass(repo, t);
    var r := ResolveAdapter(w, repo, name, t);
    var o1 := All(w, repo, map[], t, send);
    var w1 := ClearCache(o1.w, repo);
    assert r.adapter.Some?;
    assert w1.adapters == r.w.adapters;
    assert ResolveAdapter(w1, repo, name, t) == Resolved(w1, r.adapter);
  }

  /** `all(options)` with options leaves every snapshot as it was and, when
      the adapter exists, sends exactly one request. */
  lemma AllWithOptionsBypassesCache(w: World, repo: string, options: map<string, Value>, t: Inflections, send: Request -> Response)
    requires repo in w.repos && |options| > 0
    requires ResolveAdapter(w, repo, ModelClass(repo, t), t).adapter.Some?
    ensures var o := All(w, repo, options, t, send);
      o.w.repos == w.repos && |o.w.log| == |w.log| + 1
  {
  }

  /** The index of the first record whose id is `id`. */
  function FirstWithId(records: seq<Record>, id: Value): (k: Option<nat>)
    ensures k.Some? ==> (k.value < |records| && Id(records[k.value]) == id
                         && forall j :: 0 <= j < k.value ==> Id(records[j]) != id)
    ensures k.None? <==> forall j :: 0 <= j < |records| ==> Id(records[j]) != id
    decreases |records|
  {
    if |records| == 0 then None
    else if Id(records[0]) == id then Some(0)
    else
      match FirstWithId(records[1..], id)
      case None => None
      case Some(i) => Some(i + 1)
  }

  /** `find_locally(id)`: only a non-empty snapshot is searched; the first record with that id wins. */
  function FindLocally(snapshot: Option<Collection>, id: Value): (r: Option<Record>)
    ensures r.Some? ==> && snapshot.Some?
                        && Id(r.value) == id
                        && (exists k :: 0 <= k < |snapshot.value.records| && r.value == snapshot.value.records[k]
                                       && (forall j :: 0 <= j < k ==> Id(snapshot.value.records[j]) != id))
    ensures r.None? <==> snapshot.None? || forall j :: 0 <= j < |snapshot.value.records| ==> Id(snapshot.value.records[j]) != id
  {
    if snapshot.Some? && |snapshot.value.records| > 0 then
      match FirstWithId(snapshot.value.records, id)
      case Some(k) => Some(snapshot.value.records[k])
      case None => None
    else None
  }

  /** The library's own tests: a snapshot holding a record with id 123 finds
      it; an empty snapshot finds nothing. */
  lemma FindLocallyExamples(m: Record)
    requires Id(m) == Num(123)
    ensures FindLocally(Some(Of([m])), Num(123)) == Some(m)
    ensures FindLocally(Some(Of([])), Num(123)) == None
    ensures FindLocally(None, Num(123)) == None
  {
  }

  /** `adapter(model_class).find(id)`, with the request logged. */
  function Remote(w: World, repo: string, id: Value, t: Inflections, send: Request -> Response): (o: Outcome<Unpacked>)
    ensures o.w.repos == w.repos && o.w.registry == w.registry
    ensures var r := ResolveAdapter(w, repo, ModelClass(repo, t), t);
      match r.adapter
      case None => o == Outcome(r.w, Err(NilAdapter(ModelClass(repo, t))))
      case Some(a) =>
        var c := Adapters.Find(a, id, map[], t, send);
        o.w == r.w.(log := w.log + [c.request]) && o.result == c.result
    ensures Valid(w) ==> Valid(o.w)
  {
    var r := ResolveAdapter(w, repo, ModelClass(repo, t), t);
    match r.adapter
    case None => Outcome(r.w, Err(NilAdapter(ModelClass(repo, t))))
    case Some(a) =>
      var c := Adapters.Find(a, id, map[], t, send);
      Outcome(r.w.(log := r.w.log + [c.request]), c.result)
  }

  /** `find(id)`: a local hit is returned without a request; a miss goes to the adapter. */
  function Find(w: World, repo: string, id: Value, t: Inflections, send: Request -> Response): (o: Outcome<Unpacked>)
    requires repo in w.repos
    ensures FindLocally(w.repos[repo].snapshot, id).Some? ==>
              o == Outcome(w, Ok(One(FindLocally(w.repos[repo].snapshot, id).value)))
    ensures FindLocally(w.repos[repo].snapshot, id).None? ==> o == Remote(w, repo, id, t, send)
    ensures o.w.log == w.log ==> o.result.Ok? || o.result.failure.NilAdapter?
    ensures o.w.repos == w.repos
  {
    match FindLocally(w.repos[repo].snapshot, id)
    case Some(m) => Outcome(w, Ok(One(m)))
    case None => Remote(w, repo, id, t, send)
  }

  // ---------------------------------------------------------------- filter

  /** Every (key, value) pair of the query equals the record's attribute. */
  predicate Matches(r: Record, query: seq<(string, Value)>)
  {
    forall i :: 0 <= i < |query| ==> Lookup(r.attrs, query[i].0) == query[i].1
  }

  /** The reference meaning of a filter: the matching records, in their order. */
  function Select(records: seq<Record>, query: seq<(string, Value)>): (s: seq<Record>)
    ensures |s| <= |records|
    ensures forall x :: x in s <==> x in records && Matches(x, query)
    decreases |records|
  {
    if |records| == 0 then []
    else
      assert forall x :: x in records <==> x == records[0] || x in records[1..];
      (if Matches(records[0], query) then [records[0]] else []) + Select(records[1..], query)
  }

  /** One `select { |r| r[key] == val }`. */
  function Narrow(records: seq<Record>, key: string, val: Value): (r: seq<Record>)
    ensures |r| <= |records|
    ensures forall x :: x in r <==> x in records && Lookup(x.attrs, key) == val
    decreases |records|
  {
    if |records| == 0 then []
    else
      assert forall x :: x in records <==> x == records[0] || x in records[1..];
      (if Lookup(records[0].attrs, key) == val then [records[0]] else []) + Narrow(records[1..], key, val)
  }

  /** `query.inject(records) { |matching, (key, val)| matching.select { ... } }`. */
  function Inject(records: seq<Record>, query: seq<(string, Value)>): (r: seq<Record>)
    ensures forall x :: x in r <==> x in records && Matches(x, query)
    decreases |query|
  {
    if |query| == 0 then records
    else
      var r := Inject(Narrow(records, query[0].0, query[0].1), query[1..]);
      assert [(query[0].0, query[0].1)] + query[1..] == query;
      forall x ensures Matches(x, query) <==> Lookup(x.attrs, query[0].0) == query[0].1 && Matches(x, query[1..]) {
        MatchesCons(x, query[0].0, query[0].1, query[1..]);
      }
      r
  }

  lemma {:induction false} SelectAfterNarrow(records: seq<Record>, key: string, val: Value, rest: seq<(string, Value)>)
    ensures Select(Narrow(records, key, val), rest) == Select(records, [(key, val)] + rest)
    decreases |records|
  {
    var q := [(key, val)] + rest;
    if |records| > 0 {
      SelectAfterNarrow(records[1..], key, val, rest);
      var x := records[0];
      MatchesCons(x, key, val, rest);
      var n := Narrow(records, key, val);
      if Lookup(x.attrs, key) == val {
        assert n == [x] + Narrow(records[1..], key, val);
        assert n[1..] == Narrow(records[1..], key, val);
      } else {
        assert n == Narrow(records[1..], key, val);
      }
    }
  }

  lemma MatchesCons(x: Record, key: string, val: Value, rest: seq<(string, Value)>)
    ensures Matches(x, [(key, val)] + rest) <==> Lookup(x.attrs, key) == val && Matches(x, rest)
  {
    var q := [(key, val)] + rest;
    if Matches(x, q) {
      assert Lookup(x.attrs, q[0].0) == q[0].1;
      forall i | 0 <= i < |rest| ensures Lookup(x.attrs, rest[i].0) == rest[i].1 {
        assert q[i + 1] == rest[i];
      }
    }
    if Lookup(x.attrs, key) == val && Matches(x, rest) {
      forall i | 0 <= i < |q| ensures Lookup(x.attrs, q[i].0) == q[i].1 {
        if i > 0 { assert q[i] == rest[i - 1]; }
      }
    }
  }

  /** Narrowing key by key is the conjunctive filter: the AND of all pairs, order kept. */
  lemma {:induction false} InjectIsSelect(records: seq<Record>, query: seq<(string, Value)>)
    ensures Inject(records, query) == Select(records, query)
    decreases |query|
  {
    if |query| == 0 {
      SelectEmptyQuery(records);
    } else {
      InjectIsSelect(Narrow(records, query[0].0, query[0].1), query[1..]);
      SelectAfterNarrow(records, query[0].0, query[0].1, query[1..]);
      assert [(query[0].0, query[0].1)] + query[1..] == query;
    }
  }

  lemma {:induction false} SelectEmptyQuery(records: seq<Record>)
    ensures Select(records, []) == records
    decreases |records|
  {
    if |records| > 0 {
      SelectEmptyQuery(records[1..]);
      assert [records[0]] + records[1..] == records;
    }
  }

  /** `filter(query)`: the conjunctive filter over `all`. */
  function Filter(w: World, repo: string, query: seq<(string, Value)>, t: Inflections, send: Request -> Response): (o: Outcome<seq<Record>>)
    requires repo in w.repos
    ensures var a := All(w, repo, map[], t, send);
      && o.w == a.w
      && (a.result.Err? ==> o.result == Err(a.result.failure))
      && (a.result.Ok? ==> o.result == Ok(Select(a.result.value.records, query)))
    ensures o.result.Ok? && |query| == 0 ==> o.result.value == All(w, repo, map[], t, send).result.value.records
  {
    var a := All(w, repo, map[], t, send);
    match a.result
    case Err(f) => Outcome(a.w, Err(f))
    case Ok(c) =>
      InjectIsSelect(c.records, query);
      SelectEmptyQuery(c.records);
      Outcome(a.w, Ok(Inject(c.records, query)))
  }

  /** The library's own test: `parent_id: 2, extra: true` keeps only record 3. */
  lemma FilterExample()
    ensures var c1 := New(map["id" := Num(1), "parent_id" := Null]);
      var c2 := New(map["id" := Num(2), "parent_id" := Num(1)]);
      var c3 := New(map["id" := Num(3), "parent_id" := Num(2), "extra" := Bool(true)]);
      var c4 := New(map["id" := Num(4), "parent_id" := Num(2)]);
      && Select([c1, c2, c3, c4], [("parent_id", Num(1))]) == [c2]
      && Select([c1, c2, c3, c4], [("parent_id", Num(2)), ("extra", Bool(true))]) == [c3]
  {
    FilterByParent();
    FilterByParentAndExtra();
  }

  /** One step of `Select`: the head is kept exactly when it matches. */
  lemma SelectStep(r: Record, rest: seq<Record>, query: seq<(string, Value)>)
    ensures Select([r] + rest, query) == (if Matches(r, query) then [r] else []) + Select(rest, query)
  {
    assert ([r] + rest)[1..] == rest;
  }

  /** `Select` over four records, unfolded. */
  lemma SelectFour(r1: Record, r2: Record, r3: Record, r4: Record, query: seq<(string, Value)>)
    ensures Select([r1, r2, r3, r4], query)
      == (if Matches(r1, query) then [r1] else []) + ((if Matches(r2, query) then [r2] else [])
       + ((if Matches(r3, query) then [r3] else []) + ((if Matches(r4, query) then [r4] else []) + [])))
  {
    SelectStep(r4, [], query);
    SelectStep(r3, [r4], query);
    SelectStep(r2, [r3, r4], query);
    SelectStep(r1, [r2, r3, r4], query);
    assert [r4] + [] == [r4];
    assert [r3] + [r4] == [r3, r4];
    assert [r2] + [r3, r4] == [r2, r3, r4];
    assert [r1] + [r2, r3, r4] == [r1, r2, r3, r4];
  }

  /** A two-pair query asks for both pairs. */
  lemma MatchesPair(x: Record, k1: string, v1: Value, k2: string, v2: Value)
    ensures Matches(x, [(k1, v1), (k2, v2)]) <==> Lookup(x.attrs, k1) == v1 && Lookup(x.attrs, k2) == v2
  {
    var q := [(k1, v1), (k2, v2)];
    assert q[0] == (k1, v1) && q[1] == (k2, v2);
  }

  lemma FilterByParent()
    ensures var c1 := New(map["id" := Num(1), "parent_id" := Null]);
      var c2 := New(map["id" := Num(2), "parent_id" := Num(1)]);
      var c3 := New(map["id" := Num(3), "parent_id" := Num(2), "extra" := Bool(true)]);
      var c4 := New(map["id" := Num(4), "parent_id" := Num(2)]);
      Select([c1, c2, c3, c4], [("parent_id", Num(1))]) == [c2]
  {
    var c1 := New(map["id" := Num(1), "parent_id" := Null]);
    var c2 := New(map["id" := Num(2), "parent_id" := Num(1)]);
    var c3 := New(map["id" := Num(3), "parent_id" := Num(2), "extra" := Bool(true)]);
    var c4 := New(map["id" := Num(4), "parent_id" := Num(2)]);
    var q := [("parent_id", Num(1))];
    assert !Matches(c1, q) by { assert Lookup(c1.attrs, q[0].0) != q[0].1; }
    assert Matches(c2, q);
    assert !Matches(c3, q) by { assert Lookup(c3.attrs, q[0].0) != q[0].1; }
    assert !Matches(c4, q) by { assert Lookup(c4.attrs, q[0].0) != q[0].1; }
    SelectFour(c1, c2, c3, c4, q);
  }

  lemma FilterByParentAndExtra()
    ensures var c1 := New(map["id" := Num(1), "parent_id" := Null]);
      var c2 := New(map["id" := Num(2), "parent_id" := Num(1)]);
      var c3 := New(map["id" := Num(3), "parent_id" := Num(2), "extra" := Bool(true)]);
      var c4 := New(map["id" := Num(4), "parent_id" := Num(2)]);
      Select([c1, c2, c3, c4], [("parent_id", Num(2)), ("extra", Bool(true))]) == [c3]
  {
    var c1 := New(map["id" := Num(1), "parent_id" := Null]);
    var c2 := New(map["id" := Num(2), "parent_id" := Num(1)]);
    var c3 := New(map["id" := Num(3), "parent_id" := Num(2), "extra" := Bool(true)]);
    var c4 := New(map["id" := Num(4), "parent_id" := Num(2)]);
    var q := [("parent_id", Num(2)), ("extra", Bool(true))];
    MatchesPair(c1, "parent_id", Num(2), "extra", Bool(true));
    MatchesPair(c2, "parent_id", Num(2), "extra", Bool(true));
    MatchesPair(c3, "parent_id", Num(2), "extra", Bool(true));
    MatchesPair(c4, "parent_id", Num(2), "extra", Bool(true));
    assert Lookup(c1.attrs, "parent_id") == Null;
    assert Lookup(c2.attrs, "parent_id") == Num(1);
    assert Lookup(c3.attrs, "parent_id") == Num(2) && Lookup(c3.attrs, "extra") == Bool(true);
    assert Lookup(c4.attrs, "extra") == Null;
    SelectFour(c1, c2, c3, c4, q);
  }

  // ---------------------------------------------------------------- writes

  /** `save(model)`: `adapter(model_name).create(model)`. */
  function Save(w: World, repo: string, model: Record, t: Inflections, send: Request -> Response): (o: Outcome<Unpacked>)
    requires repo in w.repos
    ensures var name := w.repos[repo].modelName;
      var r := ResolveAdapter(w, repo, name, t);
      match r.adapter
      case None => o == Outcome(r.w, Err(NilAdapter(name)))
      case Some(a) =>
        var c := Adapters.Create(a, model, t, send);
        o.w == r.w.(log := w.log + [c.request]) && o.result == c.result
    ensures o.w.repos == w.repos && o.w.registry == w.registry
    ensures Valid(w) ==> Valid(o.w)
  {
    var name := w.repos[repo].modelName;
    var r := ResolveAdapter(w, repo, name, t);
    match r.adapter
    case None => Outcome(r.w, Err(NilAdapter(name)))
    case Some(a) =>
      var c := Adapters.Create(a, model, t, send);
      Outcome(r.w.(log := r.w.log + [c.request]), c.result)
  }

  /** `post(id, action)`: `adapter(model_class).post(id, action)`. */
  function Post(w: World, repo: string, id: Value, action: string, t: Inflections, send: Request -> Response): (o: Outcome<Unpacked>)
    ensures var r := ResolveAdapter(w, repo, ModelClass(repo, t), t);
      match r.adapter
      case None => o == Outcome(r.w, Err(NilAdapter(ModelClass(repo, t))))
      case Some(a) =>
        var c := Adapters.PostAction(a, id, action, t, send);
        o.w == r.w.(log := w.log + [c.request]) && o.result == c.result
    ensures o.w.repos == w.repos && o.w.registry == w.registry
    ensures Valid(w) ==> Valid(o.w)
  {
    var r := ResolveAdapter(w, repo, ModelClass(repo, t), t);
    match r.adapter
    case None => Outcome(r.w, Err(NilAdapter(ModelClass(repo, t))))
    case Some(a) =>
      var c := Adapters.PostAction(a, id, action, t, send);
      Outcome(r.w.(log := r.w.log + [c.request]), c.result)
  }
}

=== FILE: restish.dfy ===
/** The process-wide state of `Restish`: the adapter table and default URL
    (lib/restish.rb), the repository registry and snapshots, the adapter
    classes that constant lookup would find, and the transport log. */
module Restish {
  import opened Values
  import opened Http
  import opened Collections
  import opened Adapters

  /** A repository object: the name its model class has in ActiveModel, and
      its `@all` snapshot. */
  datatype Repo = Repo(modelName: string, snapshot: Option<Collection>)

  datatype World = World(
    defaultUrl: Option<string>,
    /** `Restish.adapters`; a key can hold nil. */
    adapters: map<string, Option<Adapter>>,
    /** The adapter classes by constant name, e.g. "FoobarAdapter". */
    classes: map<string, AdapterClass>,
    /** Repository objects by their Ruby name. */
    repos: map<string, Repo>,
    /** `Repository.repositories`, in extension order. */
    registry: seq<string>,
    /** `@default_connection` of each object that includes `AdapterSupport`. */
    defaultConnections: map<string, Connection>,
    /** The next serial number for a newly built adapter or connection. */
    nextSerial: nat,
    /** Every request handed to the transport, oldest first. */
    log: seq<Request>)

  /** Every registered name is a repository and every repository is registered;
      every built object has a serial below the counter. */
  ghost predicate Valid(w: World)
  {
    && (forall i :: 0 <= i < |w.registry| ==> w.registry[i] in w.repos)
    && (forall n :: n in w.repos ==> n in w.registry)
    && (forall n :: n in w.adapters && w.adapters[n].Some? ==> w.adapters[n].value.serial < w.nextSerial)
    && (forall n :: n in w.defaultConnections ==> w.defaultConnections[n].serial < w.nextSerial)
  }

  /** The state when the library is loaded: `self.adapters = {}` and `self.repositories = []`. */
  function Boot(defaultUrl: Option<string>, classes: map<string, AdapterClass>): (w: World)
    ensures Valid(w)
    ensures w.adapters == map[] && w.repos == map[] && w.registry == [] && w.log == []
    ensures w.defaultUrl == defaultUrl && w.classes == classes
  {
    World(defaultUrl, map[], classes, map[], [], map[], 0, [])
  }

  /** `Restish.clear_adapters`. */
  function ClearAdapters(w: World): (w': World)
    ensures w'.adapters == map[]
    ensures w'.defaultUrl == w.defaultUrl && w'.classes == w.classes && w'.repos == w.repos
    ensures w'.registry == w.registry && w'.defaultConnections == w.defaultConnections
    ensures w'.nextSerial == w.nextSerial && w'.log == w.log
    ensures Valid(w) ==> Valid(w')
  {
    w.(adapters := map[])
  }

  /** Clearing the adapter table twice is clearing it once. */
  lemma ClearAdaptersIdempotent(w: World)
    ensures ClearAdapters(ClearAdapters(w)) == ClearAdapters(w)
  {
  }

  /** The library's own test: a table holding an adapter is empty afterwards. */
  lemma ClearAdaptersExample(w: World, a: Adapter)
    ensures ClearAdapters(w.(adapters := map["yeehaw" := Some(a)])).adapters == map[]
  {
  }
}

=== FILE: text.dfy ===
/** String helpers: the inflector functions the library borrows from
    ActiveSupport, kept uninterpreted, and `Array#join`. */
module Text {
  import opened Values

  /** The text transformations the core relies on but does not define.
      Each is an arbitrary total function; nothing is assumed about it. */
  datatype Inflections = Inflections(
    pluralize: string -> string,
    singularize: string -> string,
    humanize: string -> string,
    underscore: string -> string,
    camelize: string -> string,
    toS: Value -> string)

  /** `segments * sep` (that is, `Array#join`). */
  function Join(segments: seq<string>, sep: string): string
  {
    if |segments| == 0 then ""
    else if |segments| == 1 then segments[0]
    else segments[0] + sep + Join(segments[1..], sep)
  }

  /** Joining one more segment on the right adds the separator and the segment. */
  lemma {:induction false} JoinSnoc(segments: seq<string>, last: string, sep: string)
    requires |segments| > 0
    ensures Join(segments + [last], sep) == Join(segments, sep) + sep + last
    decreases |segments|
  {
    if |segments| == 1 {
      assert segments + [last] == [segments[0], last];
      assert ([segments[0], last])[1..] == [last];
    } else {
      assert (segments + [last])[1..] == segments[1..] + [last];
      JoinSnoc(segments[1..], last, sep);
    }
  }

  predicate StartsWith(s: string, p: string)
  {
    |p| <= |s| && s[..|p|] == p
  }

  predicate EndsWith(s: string, p: string)
  {
    |p| <= |s| && s[|s| - |p|..] == p
  }

  /** `key` occurs in `text` starting at position `i`. */
  predicate At(text: string, key: string, i: int)
  {
    0 <= i <= |text| - |key| && text[i..i + |key|] == key
  }

  /** `text.include?(key)`: `key` occurs in `text` at some position. */
  function Occurs(text: string, key: string): (o: bool)
    ensures o <==> exists i :: At(text, key, i)
    decreases |text|
  {
    if |text| < |key| then false
    else if StartsWith(text, key) then
      assert At(text, key, 0);
      true
    else
      var rest := Occurs(text[1..], key);
      assert forall i :: At(text[1..], key, i) <==> At(text, key, i + 1) by {
        forall i ensures At(text[1..], key, i) <==> At(text, key, i + 1) {
          if 0 <= i <= |text| - 1 - |key| {
            assert text[1..][i..i + |key|] == text[i + 1..i + 1 + |key|];
          }
        }
      }
      assert !At(text, key, 0);
      assert forall i :: At(text, key, i) ==> i == 0 || At(text[1..], key, i - 1);
      rest
  }
}

=== FILE: values.dfy ===
/** Decoded JSON values as the Ruby code sees them, and Ruby's notions of
    truthiness and blankness over them. */
module Values {

  datatype Option<+T> = None | Some(value: T)

  /** A JSON-decoded value. Numbers are integers only. */
  datatype Value =
    | Null
    | Bool(b: bool)
    | Num(n: int)
    | Str(s: string)
    | Arr(items: seq<Value>)
    | Obj(fields: map<string, Value>)

  /** A decoded response body or any string-keyed hash. */
  type Body = map<string, Value>

  /** `hash[key]`: a missing key reads as nil. */
  function Lookup(m: map<string, Value>, key: string): Value
  {
    if key in m then m[key] else Null
  }

  /** Ruby truthiness: everything except nil and false. */
  predicate Truthy(v: Value)
  {
    !(v.Null? || v == Bool(false))
  }

  /** The ASCII characters that make a string blank. */
  predicate IsSpace(c: char)
  {
    c == ' ' || c == '\t' || c == '\n' || c == '\r' || c == '\U{000C}' || c == '\U{000B}'
  }

  /** `String#blank?`: empty or whitespace only. */
  predicate BlankText(s: string)
  {
    forall i :: 0 <= i < |s| ==> IsSpace(s[i])
  }

  /** `Object#blank?` for JSON values. */
  predicate Blank(v: Value)
  {
    match v
    case Null => true
    case Bool(b) => !b
    case Num(_) => false
    case Str(s) => BlankText(s)
    case Arr(items) => |items| == 0
    case Obj(fields) => |fields| == 0
  }

  /** `present?` for an optional string, as used for the adapter's prefix and format. */
  predicate PresentText(o: Option<string>)
  {
    o.Some? && !BlankText(o.value)
  }
}
